=== FILE: README.md ===
# rebu dispatch and wallet ledger, modelled in Dafny

rebu is a freight-dispatch backend. Users post trip requests, either on demand or scheduled for a time window. The matcher offers an on-demand request to nearby drivers in widening waves. The first driver to accept takes it, under a short-lived lock. Scheduled requests reserve a driver by writing availability blocks. Every completed trip debits a commission from the driver's wallet. The wallet is a signed balance backed by a ledger of transactions, and a driver whose balance falls below minus their credit limit is LIMITED. Four periodic jobs do the rest:

- send reminders before scheduled trips;
- re-open scheduled trips whose driver is not online;
- expire stale on-demand requests;
- delete old availability blocks.

This project models that core in Dafny as pure functions over an immutable world state:

- `State.World` holds the relational tables as maps from ids to records and the wallet ledger as an append-only sequence.
- It also holds the key-value stores beside them: acceptance locks, per-request pending-offer sets, and the cached driver status.
- Every insert takes the id `nextId`. `State.FreshIds` says no id at or above it is in use; only the lemmas that need fresh ids assume it.
- Each operation and each job is a function from a world, plus its inputs and the current time, to a `Wrappers.Result` or a new world. Failures are `Err` values and leave the world unchanged.

## Conventions

- **Time:** integer seconds.
- **Money, rates and coordinates:** exact reals.
- **Configuration:** `Config.Settings`, with the shipped values in `Config.Defaults`.
- **The geospatial index** is a function parameter (`Matching.GeoQuery`) that returns driver ids near a point.
- **Push notifications** never affect the state. Jobs that notify return what they would send.
- **Raised exceptions** that the source does not catch become `Err` values. The query builder's refusal to compare a column with None is `ValidationError`.
- **Imported repository modules.** The services import `app.repositories.<name>_repository` modules, which are not part of this model. The model assumes each one is the same-named class of `repositories/__init__.py`.

## Behaviours modelled as written

The model does what the code does, including where that is surprising. Each such behaviour is stated by a lemma or a postcondition:

- **Double debit.** The ledger write already moves the driver's balance to `old + amount`, and each wallet operation then applies the amount again. The entry records `old + amount`, but the driver ends at `old + 2·amount`. Consequences:
  - the ledger stops replaying to the balance after a bonus, a payment, a penalty or a commission charge (`WalletService.BonusBreaksLedgerReplay`, `WalletService.PaymentBreaksLedgerReplay`, `WalletService.PenaltyBreaksLedgerReplay`, `WalletService.ChargeBreaksLedgerReplay`);
  - a 4000 trip by a FREE driver at balance 0 leaves them at −1200 (`WalletService.FreeTierCommissionScenario`).
- **Completion overrides LIMITED.** Completion sets the driver ACTIVE after the charge, even if the charge had just set LIMITED (`TripLifecycle.CompletionOverridesLimited`).
- **The charged rate is recomputed.** The charge recomputes the rate from the driver's plan at completion and overwrites the rate frozen at creation (`TripLifecycle.ChargedRateIsRecomputed`).
- **The lock is the only acceptance guard.** It is never released on success. Once it lapses, a sibling offer can also be accepted (`Matching.SecondAcceptAfterLockLapse`). The second driver then gets no trip, because the request already has one, yet their offer stays ACCEPTED (`TripsApi.LateAcceptKeepsOfferButGetsNoTrip`).
- **Rejection is no guard either.** A rejected offer can still be accepted (`TripsApi.RejectedOfferCanStillBeAccepted`).
- **Expiry boundaries disagree.** The expiry job expires at `expires_at <= now`, while the request's own test is `now > expires_at` (`Workers.ExpiryJobBoundaryDisagreesWithModel`).
- **Credit limit and commission rate disagree on inactive plans.** The credit limit ignores whether the plan is active, while the commission rate falls back to FREE for an inactive one (`WalletService.RateFollowsActivenessButLimitDoesNot`).
- **Auto-rematch cancels every trip in the window.** It compares the cached status with the text "ONLINE". The location endpoint caches the driver's status name (rebu-project/backend/app/api/drivers.py:64), which is never "ONLINE", so every CONFIRMED scheduled trip in the window is cancelled (`Workers.EveryWindowTripIsRematched`). The job leaves drivers untouched, so the cancelled trip's driver keeps whatever status they had, BUSY unless something changed it since the trip was created. The cancelled trip also keeps its unique request column, so the re-opened PENDING request can never get a trip again (`Workers.RematchedRequestCannotGetTrip`).
- **A missing window bound makes the conflict query raise.** The scheduled search and the pre-assignment pass the request's window straight to the conflict query. With a bound missing, for example on an ON_DEMAND request, the query cannot be built. The search then fails whenever some driver is ACTIVE, and the pre-assignment always fails (`Repositories.HasWindowConflict`, `Matching.FindAvailableDriversForScheduledTrip`).
- **Both creation endpoints ignore the body's mode.** The on-demand endpoint always creates an ON_DEMAND request and the scheduled one a SCHEDULED request, whatever mode the client sent (`TripsApi.CreateOnDemandEndpoint`, `TripsApi.CreateScheduledEndpoint`).

## Model

| member | source | states |
|---|---|---|
| Config.DefaultsWellFormed | rebu-project/backend/app/core/config.py:57-79 | The shipped settings have wave radii 3 < 5 < 10 km within the 10 km fallback, rates 0.05 < 0.10 < 0.15 within [0, 1], ceilings 0 < 500 < 1000 < 2000, an offer TTL of 60 s shorter than the 15 min request TTL, reminders [60, 15] and a 30 min confirmation window |
| Subscriptions.InactiveUnlessActiveStatus | rebu-project/backend/app/models/subscription.py:59-62 | A plan whose status is not ACTIVE is inactive at every time |
| Subscriptions.ActiveUntilExpiryInclusive | rebu-project/backend/app/models/subscription.py:63-65 | An ACTIVE plan with an expiry is active exactly up to and including the expiry instant |
| Subscriptions.NoExpiryMeansAlwaysActive | rebu-project/backend/app/models/subscription.py:63-65 | An ACTIVE plan without an expiry is active at every time |
| Subscriptions.InactiveStaysInactive | rebu-project/backend/app/models/subscription.py:59-65 | A plan inactive at some time is inactive at every later time |
| Drivers.NewDriver | rebu-project/backend/app/models/driver.py:38-45 | A new driver is PENDING with balance 0 and no plan, so not online |
| Drivers.CreditLimit | rebu-project/backend/app/models/driver.py:81-93 | The limit is one of the three configured ceilings, and under well-formed settings at least the positive FREE ceiling |
| Drivers.CreditLimitByTierOnly | rebu-project/backend/app/models/driver.py:81-93 | The limit is FREE without a plan and the plan tier's ceiling otherwise, whatever the plan's status or expiry; an inactive PREMIUM plan still yields the PREMIUM ceiling |
| Drivers.WithinLimitBoundaryInclusive | rebu-project/backend/app/models/driver.py:96-98 | A balance of exactly minus the limit is within limit, and every lower balance is not |
| Drivers.WithinLimitMonotone | rebu-project/backend/app/models/driver.py:96-98 | Raising the balance keeps a driver within limit |
| Ledger.SixTransactionTypes | rebu-project/backend/app/models/wallet_transaction.py:11-17 | There are exactly six transaction types |
| Ledger.ForDriver | rebu-project/backend/app/models/wallet_transaction.py:24-31 | One driver's entries are exactly the log's entries with that driver id, and no more of them than the log has |
| Ledger.AppendOne | rebu-project/backend/app/models/wallet_transaction.py:28-31 | Appending an entry adds its amount to the replayed balance, and keeps the log chained exactly when its snapshot is the running balance plus its amount |
| Ledger.ForDriverAppend | rebu-project/backend/app/models/wallet_transaction.py:24-31 | Filtering an extended log by driver adds the new entry exactly when it belongs to that driver |
| Ledger.LastSnapshotIsReplay | rebu-project/backend/app/models/wallet_transaction.py:28-31 | In a chained log the last stored balance equals the replay of all amounts |
| Availability.OverlapsWith | rebu-project/backend/app/models/driver_availability_block.py:44-46 | The negated disjointness test is true exactly when the block starts before the window ends and ends after it starts, which is the conflict query's filter |
| Availability.OverlapSymmetric | rebu-project/backend/app/models/driver_availability_block.py:44-46 | Overlap between two blocks does not depend on which one asks |
| Availability.TouchingDoesNotOverlap | rebu-project/backend/app/models/driver_availability_block.py:44-46 | A window that only touches a block at either end does not overlap it |
| Availability.HourBlockExamples | rebu-project/backend/app/models/driver_availability_block.py:44-46 | [10:00, 11:00) does not overlap [11:00, 12:00) but does overlap [10:30, 11:30) |
| Availability.ActiveClosedButOverlapHalfOpen | rebu-project/backend/app/models/driver_availability_block.py:37-46 | A block is still in effect at its end instant, yet a window starting then does not overlap it |
| Offers.NewOffer | rebu-project/backend/app/models/trip_offer.py:30-35 | A new offer is PENDING, unanswered, and carries the given request, driver, fare and expiry |
| Offers.OfferExpiryStrict | rebu-project/backend/app/models/trip_offer.py:44-47 | An offer is not expired at its expiry instant and is expired one second later |
| Offers.OfferExpiryMonotone | rebu-project/backend/app/models/trip_offer.py:44-47 | Once expired, an offer stays expired |
| Offers.FourOfferStatuses | rebu-project/backend/app/models/trip_offer.py:11-15 | An offer status is one of PENDING, ACCEPTED, REJECTED, EXPIRED |
| Requests.NewRequest | rebu-project/backend/app/models/trip_request.py:62-77 | A new request is PENDING, unassigned, unmatched, with both reminder flags false, and stores the given fields |
| Requests.ExactlyOneMode | rebu-project/backend/app/models/trip_request.py:88-94 | Exactly one of scheduled and on-demand holds |
| Requests.RequestExpiryCases | rebu-project/backend/app/models/trip_request.py:96-101 | A request without an expiry is never expired; with one it is expired exactly strictly after it |
| Trips.ActiveXorFinished | rebu-project/backend/app/models/trip.py:86-97 | Every trip status is active or finished and never both |
| Trips.NewTrip | rebu-project/backend/app/models/trip.py:53-56 | A new trip is CONFIRMED and active, uncharged, without a final fare, and copies user, locations and fare from its request |
| Repositories.CreateTransaction | rebu-project/backend/app/repositories/__init__.py:228-254 | Fails only for an unknown driver; otherwise appends exactly one entry whose snapshot is the old balance plus the amount and sets the driver's balance to that snapshot, changing nothing else |
| Repositories.CreateTransactionKeepsLedgerConsistent | rebu-project/backend/app/repositories/__init__.py:232-252 | One ledger write on its own keeps every driver's snapshots and balance equal to the replay of that driver's amounts |
| Repositories.CreateEach | rebu-project/backend/app/repositories/__init__.py:228-254 | A run of ledger writes extends the ledger by one entry per write, keeping the old entries as a prefix and the same drivers |
| Repositories.CreatesAloneKeepLedgerConsistent | rebu-project/backend/app/repositories/__init__.py:236-250 | For a run of ledger writes with nothing else in between, replaying from zero reproduces every snapshot and every final balance |
| Repositories.GetActiveDrivers | rebu-project/backend/app/repositories/__init__.py:54-57 | Returns exactly the drivers that are online, that is ACTIVE |
| Repositories.HasConflict | rebu-project/backend/app/repositories/__init__.py:268-275 | True exactly when some block of that driver overlaps [s, e) |
| Repositories.ConflictNeedsOwnOverlappingBlock | rebu-project/backend/app/repositories/__init__.py:268-275 | Adding another driver's block, or a block that only touches the window, never changes the conflict answer |
| Repositories.HasWindowConflict | rebu-project/backend/app/repositories/__init__.py:268-275 | A missing window bound is an error, because the query builder refuses `<` and `>` against None; otherwise the answer is whether some block of the driver overlaps the window |
| Repositories.CreateBlock | rebu-project/backend/app/repositories/__init__.py:277-289 | Inserts exactly one block with the given fields under a new id |
| Repositories.DeleteByTripRequest | rebu-project/backend/app/repositories/__init__.py:291-295 | Removes exactly the blocks tagged with the request and leaves every other block as it was |
| Repositories.DeleteByTripRequestRemovesAll | rebu-project/backend/app/repositories/__init__.py:291-295 | After the delete no block of the request is left, and bookings that did not overlap still do not |
| Repositories.SubmapKeepsNoDoubleBooking | rebu-project/backend/app/repositories/__init__.py:291-295 | Removing blocks never creates an overlap between one driver's blocks |
| Repositories.UpdateOfferStatus | rebu-project/backend/app/repositories/__init__.py:180-187 | A missing offer yields nothing and changes nothing; otherwise only that offer's status and response time change, whatever its status was |
| Repositories.HasOfferSurvivesStatusUpdate | rebu-project/backend/app/repositories/__init__.py:161-187 | Whether a driver holds an offer for a request (some offer pairs the two, in any status) does not change when any offer's status is updated, so an answered or expired offer still counts |
| Repositories.CreateOffer | rebu-project/backend/app/repositories/__init__.py:167-178 | Inserts exactly one PENDING offer under a new id |
| Repositories.CreateTrip | rebu-project/backend/app/repositories/__init__.py:202-221 | Fails with a conflict exactly when a trip already references the request; otherwise inserts one new trip copying the request and storing the given rate |
| Repositories.CreateTripKeepsOneTripPerRequest | rebu-project/backend/app/models/trip.py:24 | With fresh ids, a successful trip insert keeps the unique request column intact |
| WalletService.CommissionRate | rebu-project/backend/app/services/wallet_service.py:176-193 | FREE rate without a plan or with an inactive one; under well-formed rates the result lies between the PREMIUM and FREE rates |
| WalletService.RateFollowsActivenessButLimitDoesNot | rebu-project/backend/app/services/wallet_service.py:176-193 | An active plan pays its tier's rate; an inactive PREMIUM plan pays the FREE rate while keeping the PREMIUM credit ceiling |
| WalletService.ChargeTripCommission | rebu-project/backend/app/services/wallet_service.py:21-59 | Fails if already charged; otherwise writes a TRIP_COMMISSION entry of minus fare times rate linked to the trip, with snapshot old minus commission. The driver ends at old minus twice the commission, becomes LIMITED only if out of limit, and the trip records charged, rate and amount |
| WalletService.ChargeIsOnce | rebu-project/backend/app/services/wallet_service.py:26-27 | A second charge of the same trip fails |
| WalletService.AddPayment | rebu-project/backend/app/services/wallet_service.py:61-97 | Rejects a non-positive amount, then an unknown driver; otherwise writes a PAYMENT entry with snapshot old plus amount, ends the driver at old plus twice the amount, and turns LIMITED into ACTIVE only if back within limit |
| WalletService.AddBonus | rebu-project/backend/app/services/wallet_service.py:99-123 | Rejects a non-positive amount or an unknown driver; otherwise writes a positive BONUS entry, adds the amount twice to the balance and never changes the status |
| WalletService.AddPenalty | rebu-project/backend/app/services/wallet_service.py:125-154 | Rejects a non-positive amount or an unknown driver; otherwise writes a negative PENALTY entry, subtracts the amount twice and sets LIMITED when out of limit |
| WalletService.BonusBreaksLedgerReplay | rebu-project/backend/app/services/wallet_service.py:113-120 | After a bonus on a consistent ledger, the balance is the replayed sum plus the amount again, so the ledger is no longer consistent |
| WalletService.DoubleApplyBreaksReplay | rebu-project/backend/app/repositories/__init__.py:228-250 | When the ledger write has already applied an entry and the caller applies its nonzero amount a second time, the balance is the replayed sum plus the amount again, so the ledger is no longer consistent |
| WalletService.PaymentBreaksLedgerReplay | rebu-project/backend/app/services/wallet_service.py:79-88 | A payment on a consistent ledger succeeds, leaves the balance at the replayed sum plus the amount again, and breaks consistency |
| WalletService.PenaltyBreaksLedgerReplay | rebu-project/backend/app/services/wallet_service.py:139-146 | A penalty on a consistent ledger leaves the balance at the replayed sum minus the amount again, and breaks consistency |
| WalletService.ChargeBreaksLedgerReplay | rebu-project/backend/app/services/wallet_service.py:36-45 | A nonzero commission charge on a consistent ledger leaves the balance at the replayed sum minus the commission again, and breaks consistency |
| WalletService.FreeTierCommissionScenario | rebu-project/backend/app/services/wallet_service.py:30-49 | A FREE driver at 0 charged on a 4000 fare gets an entry of −600 with snapshot −600, ends at −1200 and is LIMITED |
| Matching.WaveRadius | rebu-project/backend/app/services/matching_service.py:35-40 | Any wave number other than 1 to 3 uses the fallback radius; under well-formed radii every wave's radius is positive and within the fallback |
| Matching.WavesWiden | rebu-project/backend/app/services/matching_service.py:35-40 | Waves 1, 2 and 3 search strictly wider radii, none beyond the fallback |
| Matching.SelectEligible | rebu-project/backend/app/services/matching_service.py:56-68 | Keeps exactly the eligible ids, each once, and never more ids than it was given |
| Matching.FindDriversForOnDemandTrip | rebu-project/backend/app/services/matching_service.py:25-70 | Empty when nothing is nearby; otherwise exactly the nearby drivers that exist, are ACTIVE, have no pending offer for the request and are within limit, each once and at most 10 |
| Matching.PendingDriversExcluded | rebu-project/backend/app/services/matching_service.py:54-65 | A driver with a pending offer for the request is never a candidate in any wave |
| Matching.Take | rebu-project/backend/app/services/matching_service.py:43-47 | The nearby query's cap of 10: the result is the first min(n, length) ids of the query's answer, in order |
| Matching.OfferEach | rebu-project/backend/app/services/matching_service.py:87-102 | The offer loop advances the id counter by one per listed driver and changes nothing but the offers, the pending sets and the counter |
| Matching.OfferEachOffers | rebu-project/backend/app/services/matching_service.py:87-95 | Issuing offers creates, for the i-th listed driver, a PENDING offer under the i-th new id and touches no existing offer |
| Matching.OfferEachPending | rebu-project/backend/app/services/matching_service.py:97-102 | Issuing offers adds exactly the listed drivers to the request's pending set and leaves other requests' sets alone |
| Matching.SendOffersToDrivers | rebu-project/backend/app/services/matching_service.py:72-112 | An empty list changes nothing; otherwise each listed driver gets a PENDING offer at the request's estimated fare with one shared expiry now plus the offer TTL, and joins the pending set |
| Matching.OneNewOfferPerDriver | rebu-project/backend/app/services/matching_service.py:87-95 | With fresh ids and distinct drivers, each listed driver receives exactly one new offer |
| Matching.AcceptOffer | rebu-project/backend/app/services/matching_service.py:114-158 | Fails with no change if the offer is missing, another driver's, expired, or its request is locked; otherwise takes the lock, marks the offer ACCEPTED and the request MATCHED with times, and clears the pending set, without checking either status |
| Matching.LockLapses | rebu-project/backend/app/services/matching_service.py:131-134 | The lock's TTL running out removes just that request's lock |
| Matching.RunAccepts | rebu-project/backend/app/services/matching_service.py:131-154 | Running accept attempts in turn never releases a lock |
| Matching.AtMostOneAcceptPerLock | rebu-project/backend/app/services/matching_service.py:131-154 | Within one lock lifetime at most one accept per request succeeds, and none does while the lock is already held |
| Matching.SecondAcceptAfterLockLapse | rebu-project/backend/app/services/matching_service.py:123-154 | A sibling accept fails while the lock is held, but succeeds once it lapses, leaving two ACCEPTED offers for one request |
| Matching.FindAvailableDriversForScheduledTrip | rebu-project/backend/app/services/matching_service.py:160-188 | Fails exactly when a window bound is missing and some driver is ACTIVE, since the conflict query then runs and raises; otherwise exactly the online drivers within limit that have no block overlapping the window |
| Matching.ScheduledSearchIgnoresRadius | rebu-project/backend/app/services/matching_service.py:160-188 | The radius argument does not affect the result |
| Matching.PreAssignDriverToScheduledTrip | rebu-project/backend/app/services/matching_service.py:190-237 | Succeeds exactly when the driver exists, is online, has no conflicting block and the window is complete; then inserts one SCHEDULED_TRIP block for the window tagged with the request and records the driver on it |
| Matching.PreAssignBlocksOverlappingWindow | rebu-project/backend/app/services/matching_service.py:207-224 | After a pre-assignment, the same driver cannot be pre-assigned to a request whose window overlaps |
| Matching.PreAssignKeepsNoDoubleBooking | rebu-project/backend/app/services/matching_service.py:207-224 | With fresh ids, pre-assignment never makes one driver's blocks overlap |
| TripLifecycle.InsertRequest | rebu-project/backend/app/repositories/__init__.py:128-143 | The request insert used by both creation operations: the row is stored under the next id, the counter advances by one, and nothing else changes |
| TripLifecycle.CreateOnDemandTrip | rebu-project/backend/app/services/trip_service.py:29-54 | Inserts one PENDING ON_DEMAND request expiring the configured minutes after now, with no window |
| TripLifecycle.OnDemandRequestLifetime | rebu-project/backend/app/services/trip_service.py:39-52 | Under well-formed settings a fresh on-demand request is not expired now and is expired exactly after its TTL |
| TripLifecycle.CreateScheduledTrip | rebu-project/backend/app/services/trip_service.py:56-79 | Inserts one PENDING SCHEDULED request storing its window, with no expiry and no reminders sent |
| TripLifecycle.ScheduledRequestNeverExpires | rebu-project/backend/app/services/trip_service.py:68-77 | A fresh scheduled request is never expired |
| TripLifecycle.CreateTripFromRequest | rebu-project/backend/app/services/trip_service.py:85-130 | Fails if request or driver is missing, or with a conflict if the request already has a trip; otherwise creates a CONFIRMED trip with the placeholder vehicle, copying user and fare from the request and freezing the driver's current commission rate, which is the wallet service's rate; the driver becomes BUSY and nothing else changes |
| TripLifecycle.TripCommissionRate | rebu-project/backend/app/services/trip_service.py:200-217 | The trip service's rate lookup always yields one of the three configured rates |
| TripLifecycle.SameRateAsWalletService | rebu-project/backend/app/services/trip_service.py:200-217 | The trip service's rate lookup agrees with the wallet service's for every driver at every time |
| TripLifecycle.StartTrip | rebu-project/backend/app/services/trip_service.py:132-154 | Only the trip's own driver can start it, only from ARRIVED; it becomes IN_PROGRESS with its pickup time |
| TripLifecycle.StartOnlyOnce | rebu-project/backend/app/services/trip_service.py:139-143 | A started trip is active, and starting it again fails |
| TripLifecycle.CompleteTrip | rebu-project/backend/app/services/trip_service.py:156-194 | Only the own driver, only from IN_PROGRESS and if not yet charged; the trip becomes COMPLETED, charged at the current rate, with one commission entry for this trip and driver written whose snapshot is the old balance minus the commission, the driver debited twice and left ACTIVE |
| TripLifecycle.CompletionOverridesLimited | rebu-project/backend/app/services/trip_service.py:179-182 | After completion the driver is online even when beyond their credit limit |
| TripLifecycle.FreeDriverActiveBeyondLimit | rebu-project/backend/app/services/trip_service.py:179-182 | A FREE driver at 0 completing a 4000 trip ends ACTIVE at −1200, out of limit |
| TripLifecycle.ChargedRateIsRecomputed | rebu-project/backend/app/services/trip_service.py:107-115 | A trip created at the PREMIUM rate whose plan lapsed before completion is charged and stamped with the FREE rate |
| Workers.MarkReminderSent | rebu-project/backend/app/workers/background_workers.py:125-128 | Sets the flag of the 60- or 15-minute reminder, keeps flags already set, and changes nothing else |
| Workers.RemindPass | rebu-project/backend/app/workers/background_workers.py:78-130 | For one offset, reminds and flags exactly the SCHEDULED, MATCHED requests in the ±2 min window whose flag is unset and that have a trip; every other request is unchanged |
| Workers.RemindPassKeepsOtherOffsetsDue | rebu-project/backend/app/workers/background_workers.py:78-128 | After one offset's pass a request is due for an offset only if it was due before, and it stays due for every other offset |
| Workers.ReminderJob | rebu-project/backend/app/workers/background_workers.py:67-139 | A reminder is sent for a request and offset exactly when the offset is configured and the request was due for it at the start (in the window, flag unset, holding a trip); only request flags change |
| Workers.ReminderJobSkipsTripless | rebu-project/backend/app/workers/background_workers.py:99-104 | A request without a trip gets no reminder and keeps its flags |
| Workers.ReminderJobTouchesOnlyMatchedScheduled | rebu-project/backend/app/workers/background_workers.py:82-89 | A request that is not SCHEDULED and MATCHED is neither reminded nor changed |
| Workers.ReminderFlagsPersist | rebu-project/backend/app/workers/background_workers.py:125-128 | A reminder flag once set stays set |
| Workers.SentRemindersAreFlagged | rebu-project/backend/app/workers/background_workers.py:93-128 | Every 60- or 15-minute reminder sent is flagged afterwards |
| Workers.NeverRemindedWhenFlagged | rebu-project/backend/app/workers/background_workers.py:93-96 | A request whose flag for an offset is set is never reminded for that offset |
| Workers.NoRepeatedReminders | rebu-project/backend/app/workers/background_workers.py:93-128 | A rerun of the job at any time never repeats a 60- or 15-minute reminder already sent |
| Workers.RematchedRequests | rebu-project/backend/app/workers/background_workers.py:153-168 | The requests re-opened are exactly those of CONFIRMED trips on SCHEDULED requests starting within [now, now + window] whose driver's cached status is not "ONLINE" |
| Workers.AutoRematchJob | rebu-project/backend/app/workers/background_workers.py:141-199 | Each due trip is CANCELLED by SYSTEM at now; its request goes back to PENDING without a pre-assigned driver; its blocks are deleted; everything else, drivers included, is unchanged |
| Workers.RematchedRequestCannotGetTrip | rebu-project/backend/app/workers/background_workers.py:173-182 | A request the job re-opens is PENDING, but its cancelled trip still holds the unique request column (rebu-project/backend/app/models/trip.py:24), so creating a trip for it fails with a conflict for any driver at any later time |
| Workers.NoStatusIsNamedOnline | rebu-project/backend/app/models/driver.py:11-18 | No driver status name is "ONLINE" |
| Workers.EveryWindowTripIsRematched | rebu-project/backend/app/workers/background_workers.py:166-173 | With the cache holding status names only, every trip in the confirmation window is cancelled |
| Workers.AutoRematchClearsBlocks | rebu-project/backend/app/workers/background_workers.py:173-185 | After the job no block of a re-opened request remains, and the cancelled trip is no longer due |
| Workers.ExpiryJob | rebu-project/backend/app/workers/background_workers.py:201-241 | Expires exactly the PENDING requests with an expiry at or before now, releases their locks and pending sets, and changes nothing else |
| Workers.ExpiryJobIdempotent | rebu-project/backend/app/workers/background_workers.py:211-221 | A second run at the same time expires nothing and changes nothing |
| Workers.ExpiryJobBoundaryDisagreesWithModel | rebu-project/backend/app/workers/background_workers.py:211-214 | At the expiry instant the job expires a request its own expiry test still reports as live |
| Workers.ExpiryJobSparesUnexpiring | rebu-project/backend/app/workers/background_workers.py:211-214 | A request without an expiry is never expired by the job |
| Workers.AvailabilityCleanupJob | rebu-project/backend/app/workers/background_workers.py:243-271 | Deletes exactly the blocks that ended more than 24 hours before now and keeps the rest unchanged |
| Workers.CleanupKeepsConflicts | rebu-project/backend/app/workers/background_workers.py:255-259 | Cleanup changes no conflict answer for a window starting at or after the cutoff |
| Schemas.LocationErrors | rebu-project/backend/app/schemas/trip_request.py:10-13 | A latitude error exactly when outside [−90, 90], a longitude error exactly when outside [−180, 180] |
| Schemas.BaseErrors | rebu-project/backend/app/schemas/trip_request.py:10-20 | No error exactly when both locations are in bounds and the fare is strictly positive |
| Schemas.ValidateOnDemand | rebu-project/backend/app/schemas/trip_request.py:16-27 | An on-demand body is accepted exactly when its locations are in bounds and its fare is positive |
| Schemas.ValidateScheduled | rebu-project/backend/app/schemas/trip_request.py:30-45 | A start error exactly when the start is not after now; an end error exactly when the start passed and the end is not after it |
| Schemas.AcceptedWindowIsFutureAndNonEmpty | rebu-project/backend/app/schemas/trip_request.py:35-45 | An accepted scheduled body has now < start < end, in-bounds locations and a positive fare |
| Schemas.PastStartHidesEndError | rebu-project/backend/app/schemas/trip_request.py:41-45 | With a past start, an inverted window reports only the start error |
| Schemas.CoordinateBoundsInclusive | rebu-project/backend/app/schemas/trip_request.py:12-13 | The coordinate bounds themselves are valid and values beyond them are not |
| TripsApi.RejectOffer | rebu-project/backend/app/api/trips.py:152-174 | Fails with no change for a missing or foreign offer, or an expired one; otherwise the offer becomes REJECTED whatever its status |
| TripsApi.RejectedOfferCanStillBeAccepted | rebu-project/backend/app/api/trips.py:172 | A rejected offer that has not expired can still be accepted while the lock is free |
| TripsApi.AcceptOfferEndpoint | rebu-project/backend/app/api/trips.py:115-149 | A refused accept changes nothing; after a successful accept a trip is created exactly when the driver exists and the request has no trip yet, for the offer's request and the calling driver; a failed trip creation leaves the accept in place |
| TripsApi.LateAcceptKeepsOfferButGetsNoTrip | rebu-project/backend/app/api/trips.py:131-143 | After the lock lapses, a second driver's accept ends without a trip but with their offer ACCEPTED next to the first |
| TripsApi.CreateOnDemandEndpoint | rebu-project/backend/app/api/trips.py:22-51 | Rejects invalid bodies; otherwise creates an ON_DEMAND request whatever the body's mode, runs wave 1 and sends offers only when there are candidates |
| TripsApi.OnDemandEndpointOffersEveryCandidate | rebu-project/backend/app/api/trips.py:46-49 | Each wave-1 candidate gets a PENDING offer for the new request |
| TripsApi.CreateScheduledEndpoint | rebu-project/backend/app/api/trips.py:54-77 | Rejects invalid bodies; otherwise creates a SCHEDULED request with the body's future, non-empty window and sends no offers |
| TripsApi.ViewRequest | rebu-project/backend/app/api/trips.py:80-112 | Missing request: not found. A USER sees only their own, a DRIVER only one they hold an offer for or are pre-assigned to, any other role everything |
| TripsApi.DriverKeepsViewAfterReject | rebu-project/backend/app/api/trips.py:101-110 | A driver who rejected their offer may still view the request |
| TripsApi.ViewTrip | rebu-project/backend/app/api/trips.py:249-273 | Missing trip: not found. A USER sees only their own trip, a DRIVER only their own, any other role everything |
| TripsApi.TripVisibleExactlyToItsParties | rebu-project/backend/app/api/trips.py:263-271 | A trip is always shown to its own user and its own driver, and refused as unauthorized to any other user or driver |

## Left out

- **Redis.** The lock, pending sets, status cache and GEO index are abstract state. The nearby query is a function parameter. Key TTLs are not timed. The lock's expiry is the explicit step `Matching.LockLapses`. The pending sets' TTL, the offer expiry plus 60 seconds (120 seconds for the default 60-second offer), is not modelled, so a pending entry lasts until an accept or the expiry job clears it.
- **Notifications.** Firebase push is best-effort and never changes state. The reminder and expiry jobs return what they would send. Other sends are dropped.
- **Concurrency.** The real accept race and the unsynchronised wallet read-modify-write are out of scope. Operations are atomic and applied one after another, and "at most one accept" is stated relative to the lock state.
- **Transactions and rollback.** Exceptions that roll back a session, and the reminder job's per-request commit, are not modelled. A failing operation changes nothing.
- **Floating point.** Money, rates and coordinates are exact reals, and timestamps are integer seconds.
- **Time base.** All times are integer seconds on one common clock. The source compares a naive `datetime.utcnow()` with timezone-aware columns (trip_offer.py:47, trip_request.py:101, subscription.py:63, driver_availability_block.py:40-42, schemas/trip_request.py:37). In Python such a mixed comparison raises a TypeError. The model assumes the two sides are comparable and compares the instants.
- **Subscription table.** There is no separate subscription table. Each driver embeds its current plan, or none, in place of the `current_subscription_id` foreign key, so plan history and the subscription rows of other drivers are not modelled.
- **Scheduling.** APScheduler timers are not modelled. Each job is one transition at a given time.
- **Unmodelled fields.** Descriptions, cargo fields, vehicle type, ratings and profile fields are not modelled. The vehicle repository is not modelled either, and trips use the placeholder vehicle 1 as the source does.
- **Authentication and wiring.** Authentication, JWT, password hashing, the admin and location endpoints, database and app wiring, and migrations are not modelled. The view functions take the caller's role and id as input.
- Matching.FindDriversForOnDemandTrip: no order of the candidates is stated, because they come back in the store's unspecified row order, not by distance.
- Matching.AcceptOffer: when the offer's request row is missing, which is a foreign-key violation, the source commits the ACCEPTED offer before failing and releasing the lock. The model fails with no change.
- Matching.PreAssignDriverToScheduledTrip: the source receives the request object. The model takes its id and fails with not-found when it is absent.
- Workers.AutoRematchJob: a due trip whose driver row is missing would raise in the source. The model reads the cache by the trip's driver id instead.
- Repositories.CreateEach: the postcondition only fixes the ledger's growth and the driver set. What the run preserves is stated by `Repositories.CreatesAloneKeepLedgerConsistent`.

=== FILE: availability.dfy ===
/** Time blocks during which a driver is reserved
    (rebu-project/backend/app/models/driver_availability_block.py). */
module Availability {
  import opened Wrappers
  import opened Config

  /** A block covers the half-open interval [startTime, endTime). */
  datatype AvailabilityBlock = AvailabilityBlock(
    driverId: nat,
    tripRequestId: Option<nat>,
    startTime: int,
    endTime: int,
    reason: Option<string>
  )

  /** The block and [s, e) overlap: written as the negation of "the window
      ends before the block starts or starts after it ends". The result is the
      same test the conflict query filters on. */
  function OverlapsWith(b: AvailabilityBlock, s: int, e: int): (r: bool)
    ensures r <==> b.startTime < e && b.endTime > s
  {
    !(e <= b.startTime || s >= b.endTime)
  }

  /** A block is in effect at `now` when `now` lies in its closed interval. */
  predicate IsActiveAt(b: AvailabilityBlock, now: int) {
    b.startTime <= now <= b.endTime
  }

  /** Overlap is symmetric between two blocks. */
  lemma OverlapSymmetric(b1: AvailabilityBlock, b2: AvailabilityBlock)
    ensures OverlapsWith(b1, b2.startTime, b2.endTime) == OverlapsWith(b2, b1.startTime, b1.endTime)
  {
  }

  /** Intervals that only touch do not overlap, in either order. */
  lemma TouchingDoesNotOverlap(b: AvailabilityBlock, len: int)
    requires len > 0
    ensures !OverlapsWith(b, b.endTime, b.endTime + len)
    ensures !OverlapsWith(b, b.startTime - len, b.startTime)
  {
  }

  /** Concrete cases, seconds since midnight: [10:00, 11:00) against
      [11:00, 12:00) does not overlap; against [10:30, 11:30) it does. */
  lemma HourBlockExamples(driver: nat)
    ensures var b := AvailabilityBlock(driver, None, 10 * Hour, 11 * Hour, None);
            && !OverlapsWith(b, 11 * Hour, 12 * Hour)
            && OverlapsWith(b, 10 * Hour + 30 * Minute, 11 * Hour + 30 * Minute)
  {
  }

  /** In effect uses a closed interval while overlap is half-open: at its end
      instant a block is still in effect, yet a window starting then does not
      overlap it. */
  lemma ActiveClosedButOverlapHalfOpen(b: AvailabilityBlock)
    requires b.startTime <= b.endTime
    ensures IsActiveAt(b, b.endTime)
    ensures !OverlapsWith(b, b.endTime, b.endTime + 1)
  {
  }
}

=== FILE: background_workers.dfy ===
/** The four periodic jobs, each a single transition at a given `now`
    (rebu-project/backend/app/workers/background_workers.py). Notifications
    are returned as data and never affect the state. */
module Workers {
  import opened Wrappers
  import opened Config
  import opened Drivers
  import opened Requests
  import opened Trips
  import opened Availability
  import opened State
  import opened Repositories
  import TripLifecycle

  // ---------------------------------------------------------------- reminders

  /** A SCHEDULED, MATCHED request starting within two minutes (inclusive)
      either side of `now + offset minutes`. */
  predicate InReminderWindow(q: TripRequest, now: int, offset: int) {
    && q.mode == Scheduled
    && q.status == Matched
    && q.scheduledStartAt.Some?
    && now + offset * Minute - 2 * Minute <= q.scheduledStartAt.value <= now + offset * Minute + 2 * Minute
  }

  /** Only the 60- and 15-minute reminders have a flag. */
  predicate ReminderFlagSet(q: TripRequest, offset: int) {
    (offset == 60 && q.reminder60Sent) || (offset == 15 && q.reminder15Sent)
  }

  function MarkReminderSent(q: TripRequest, offset: int): (r: TripRequest)
    ensures offset == 60 || offset == 15 ==> ReminderFlagSet(r, offset)
    ensures r.(reminder60Sent := q.reminder60Sent, reminder15Sent := q.reminder15Sent) == q
    ensures ReminderFlagSet(q, 60) ==> ReminderFlagSet(r, 60)
    ensures ReminderFlagSet(q, 15) ==> ReminderFlagSet(r, 15)
  {
    if offset == 60 then q.(reminder60Sent := true)
    else if offset == 15 then q.(reminder15Sent := true)
    else q
  }

  /** Request `id` gets the `offset` reminder now: it is in the window, its
      flag is not set and some trip references it. */
  predicate ReminderDue(w: World, now: int, offset: int, id: nat) {
    id in w.requests && InReminderWindow(w.requests[id], now, offset)
    && !ReminderFlagSet(w.requests[id], offset) && HasTripFor(w, id)
  }

  /** A reminder sent for a request, `offset` minutes ahead. */
  datatype Reminder = Reminder(requestId: nat, offset: int)

  /** One offset's pass: every due request is reminded and flagged; every
      other request, and everything else, is left as it was. */
  function RemindPass(w: World, now: int, offset: int): (r: (World, set<Reminder>))
    ensures r.0.requests.Keys == w.requests.Keys
    ensures forall id :: id in w.requests && !ReminderDue(w, now, offset, id) ==> r.0.requests[id] == w.requests[id]
    ensures forall id :: ReminderDue(w, now, offset, id) ==> r.0.requests[id] == MarkReminderSent(w.requests[id], offset)
    ensures forall m :: m in r.1 <==> m.offset == offset && ReminderDue(w, now, offset, m.requestId)
    ensures r.0 == w.(requests := r.0.requests)
  {
    var reqs := map id | id in w.requests ::
                  if ReminderDue(w, now, offset, id) then MarkReminderSent(w.requests[id], offset) else w.requests[id];
    (w.(requests := reqs), set id | id in w.requests && ReminderDue(w, now, offset, id) :: Reminder(id, offset))
  }

  /** After one offset's pass a request is due for some offset only if it was
      due before, and it stays due for every other offset. */
  lemma RemindPassKeepsOtherOffsetsDue(w: World, now: int, offset: int)
    ensures forall o, id :: ReminderDue(RemindPass(w, now, offset).0, now, o, id) ==> ReminderDue(w, now, o, id)
    ensures forall o, id :: o != offset && ReminderDue(w, now, o, id) ==> ReminderDue(RemindPass(w, now, offset).0, now, o, id)
  {
    assert RemindPass(w, now, offset).0.trips == w.trips;
  }

  /** The reminder job: one pass per configured offset, in order, each seeing
      the flags the earlier passes set. */
  function ReminderJob(w: World, offsets: seq<int>, now: int): (r: (World, set<Reminder>))
    ensures r.0.requests.Keys == w.requests.Keys
    ensures r.0 == w.(requests := r.0.requests)
    ensures forall m :: m in r.1 ==> m.offset in offsets && m.requestId in w.requests
    ensures forall m :: m in r.1 <==> m.offset in offsets && ReminderDue(w, now, m.offset, m.requestId)
    ensures forall id :: id in w.requests ==>
              r.0.requests[id].(reminder60Sent := w.requests[id].reminder60Sent,
                                reminder15Sent := w.requests[id].reminder15Sent) == w.requests[id]
    decreases |offsets|
  {
    if offsets == [] then (w, {})
    else
      var p := RemindPass(w, now, offsets[0]);
      var rest := ReminderJob(p.0, offsets[1..], now);
      RemindPassKeepsOtherOffsetsDue(w, now, offsets[0]);
      (rest.0, p.1 + rest.1)
  }

  /** A request that is not reminded by the job is left exactly as it was,
      in particular one that no trip references. */
  lemma {:induction false} ReminderJobSkipsTripless(w: World, offsets: seq<int>, now: int, id: nat)
    requires id in w.requests && !HasTripFor(w, id)
    ensures ReminderJob(w, offsets, now).0.requests[id] == w.requests[id]
    ensures forall m :: m in ReminderJob(w, offsets, now).1 ==> m.requestId != id
    decreases |offsets|
  {
    if offsets != [] {
      var p := RemindPass(w, now, offsets[0]);
      assert p.0.trips == w.trips;
      ReminderJobSkipsTripless(p.0, offsets[1..], now, id);
    }
  }

  /** Only SCHEDULED, MATCHED requests are ever touched by the job. */
  lemma {:induction false} ReminderJobTouchesOnlyMatchedScheduled(w: World, offsets: seq<int>, now: int, id: nat)
    requires id in w.requests && (w.requests[id].mode != Scheduled || w.requests[id].status != Matched)
    ensures ReminderJob(w, offsets, now).0.requests[id] == w.requests[id]
    ensures forall m :: m in ReminderJob(w, offsets, now).1 ==> m.requestId != id
    decreases |offsets|
  {
    if offsets != [] {
      var p := RemindPass(w, now, offsets[0]);
      ReminderJobTouchesOnlyMatchedScheduled(p.0, offsets[1..], now, id);
    }
  }

  /** Flags once set stay set through the whole job. */
  lemma {:induction false} ReminderFlagsPersist(w: World, offsets: seq<int>, now: int, id: nat, offset: int)
    requires id in w.requests && ReminderFlagSet(w.requests[id], offset)
    ensures ReminderFlagSet(ReminderJob(w, offsets, now).0.requests[id], offset)
    decreases |offsets|
  {
    if offsets != [] {
      var p := RemindPass(w, now, offsets[0]);
      assert ReminderFlagSet(p.0.requests[id], offset);
      ReminderFlagsPersist(p.0, offsets[1..], now, id, offset);
    }
  }

  /** Every 60- or 15-minute reminder the job sends is flagged afterwards. */
  lemma {:induction false} SentRemindersAreFlagged(w: World, offsets: seq<int>, now: int, m: Reminder)
    requires m in ReminderJob(w, offsets, now).1 && (m.offset == 60 || m.offset == 15)
    ensures ReminderFlagSet(ReminderJob(w, offsets, now).0.requests[m.requestId], m.offset)
    decreases |offsets|
  {
    var p := RemindPass(w, now, offsets[0]);
    var rest := ReminderJob(p.0, offsets[1..], now);
    if m in p.1 {
      assert ReminderFlagSet(p.0.requests[m.requestId], m.offset);
      ReminderFlagsPersist(p.0, offsets[1..], now, m.requestId, m.offset);
    } else {
      SentRemindersAreFlagged(p.0, offsets[1..], now, m);
    }
  }

  /** A rerun of the job, at any later time, never repeats a 60- or
      15-minute reminder the first run sent. */
  lemma NoRepeatedReminders(w: World, offsets: seq<int>, now: int, later: int, m: Reminder)
    requires m in ReminderJob(w, offsets, now).1 && (m.offset == 60 || m.offset == 15)
    ensures m !in ReminderJob(ReminderJob(w, offsets, now).0, offsets, later).1
  {
    var v := ReminderJob(w, offsets, now).0;
    SentRemindersAreFlagged(w, offsets, now, m);
    if m in ReminderJob(v, offsets, later).1 {
      NeverRemindedWhenFlagged(v, offsets, later, m);
    }
  }

  lemma {:induction false} NeverRemindedWhenFlagged(w: World, offsets: seq<int>, now: int, m: Reminder)
    requires m.requestId in w.requests && ReminderFlagSet(w.requests[m.requestId], m.offset)
    ensures m !in ReminderJob(w, offsets, now).1
    decreases |offsets|
  {
    if offsets != [] {
      var p := RemindPass(w, now, offsets[0]);
      assert ReminderFlagSet(p.0.requests[m.requestId], m.offset);
      NeverRemindedWhenFlagged(p.0, offsets[1..], now, m);
    }
  }

  // ------------------------------------------------------------ auto-rematch

  /** The text the status cache holds for a driver status. */
  function StatusName(s: DriverStatus): string {
    match s
    case Pending => "PENDING"
    case Active => "ACTIVE"
    case Offline => "OFFLINE"
    case Busy => "BUSY"
    case Limited => "LIMITED"
    case Suspended => "SUSPENDED"
    case Blocked => "BLOCKED"
  }

  /** Trip `k` is a CONFIRMED trip of a SCHEDULED request starting within the
      confirmation window (bounds inclusive). */
  predicate InConfirmWindow(w: World, cfg: Settings, now: int, k: nat) {
    && k in w.trips
    && w.trips[k].status == Confirmed
    && w.trips[k].tripRequestId in w.requests
    && w.requests[w.trips[k].tripRequestId].mode == Scheduled
    && w.requests[w.trips[k].tripRequestId].scheduledStartAt.Some?
    && now <= w.requests[w.trips[k].tripRequestId].scheduledStartAt.value <= now + cfg.confirmWindowMinutes * Minute
  }

  /** ... and its driver's cached status is anything but the text "ONLINE". */
  predicate RematchDue(w: World, cfg: Settings, now: int, k: nat) {
    InConfirmWindow(w, cfg, now, k) && CachedStatus(w, w.trips[k].driverId) != Some("ONLINE")
  }

  /** The request ids of the trips the job cancels. */
  function RematchedRequests(w: World, cfg: Settings, now: int): (r: set<nat>)
    ensures forall rid :: rid in r <==> exists k :: RematchDue(w, cfg, now, k) && w.trips[k].tripRequestId == rid
  {
    set k | k in w.trips && RematchDue(w, cfg, now, k) :: w.trips[k].tripRequestId
  }

  const RematchReason := "Driver unavailable, auto-rematched"

  /** Cancels every due trip on behalf of SYSTEM, puts its request back to
      PENDING without a pre-assigned driver and deletes the request's blocks.
      Drivers are not touched: the driver of a cancelled trip keeps whatever
      status it had, BUSY unless something changed it after the trip was
      created. */
  function AutoRematchJob(w: World, cfg: Settings, now: int): (r: World)
    ensures r.trips.Keys == w.trips.Keys && r.requests.Keys == w.requests.Keys
    ensures forall k :: RematchDue(w, cfg, now, k) ==>
      r.trips[k] == w.trips[k].(status := TripStatus.Cancelled, cancelledBy := Some("SYSTEM"),
                                cancellationReason := Some(RematchReason), cancelledAt := Some(now))
    ensures forall k :: k in w.trips && !RematchDue(w, cfg, now, k) ==> r.trips[k] == w.trips[k]
    ensures forall id :: id in RematchedRequests(w, cfg, now) ==>
      r.requests[id] == w.requests[id].(status := RequestStatus.Pending, preAssignedDriverId := None)
    ensures forall id :: id in w.requests && id !in RematchedRequests(w, cfg, now) ==> r.requests[id] == w.requests[id]
    ensures forall k :: k in r.blocks <==>
      k in w.blocks && (w.blocks[k].tripRequestId.None? || w.blocks[k].tripRequestId.value !in RematchedRequests(w, cfg, now))
    ensures forall k :: k in r.blocks ==> r.blocks[k] == w.blocks[k]
    ensures r.drivers == w.drivers
    ensures r.(trips := w.trips, requests := w.requests, blocks := w.blocks) == w
  {
    var rids := RematchedRequests(w, cfg, now);
    var trips := map k | k in w.trips ::
      if RematchDue(w, cfg, now, k)
      then w.trips[k].(status := TripStatus.Cancelled, cancelledBy := Some("SYSTEM"),
                       cancellationReason := Some(RematchReason), cancelledAt := Some(now))
      else w.trips[k];
    var reqs := map id | id in w.requests ::
      if id in rids then w.requests[id].(status := RequestStatus.Pending, preAssignedDriverId := None)
      else w.requests[id];
    var blocks := map k | k in w.blocks && (w.blocks[k].tripRequestId.None? || w.blocks[k].tripRequestId.value !in rids)
                    :: w.blocks[k];
    w.(trips := trips, requests := reqs, blocks := blocks)
  }

  /** The cache only ever holds driver status names (the location endpoint
      writes the driver's status there). */
  predicate CacheHoldsStatusNames(w: World) {
    forall d :: d in w.statusCache ==> exists s: DriverStatus :: w.statusCache[d] == StatusName(s)
  }

  lemma NoStatusIsNamedOnline(s: DriverStatus)
    ensures StatusName(s) != "ONLINE"
  {
    match s
    case Pending => assert StatusName(s)[0] == 'P';
    case Active => assert StatusName(s)[0] == 'A';
    case Offline => assert StatusName(s)[1] == 'F';
    case Busy => assert StatusName(s)[0] == 'B';
    case Limited => assert StatusName(s)[0] == 'L';
    case Suspended => assert StatusName(s)[0] == 'S';
    case Blocked => assert StatusName(s)[0] == 'B';
  }

  /** Since the cache never holds "ONLINE", every trip in the confirmation
      window is cancelled, whether or not its driver is online. */
  lemma EveryWindowTripIsRematched(w: World, cfg: Settings, now: int, k: nat)
    requires CacheHoldsStatusNames(w) && InConfirmWindow(w, cfg, now, k)
    ensures RematchDue(w, cfg, now, k)
    ensures AutoRematchJob(w, cfg, now).trips[k].status == TripStatus.Cancelled
  {
    var d := w.trips[k].driverId;
    if d in w.statusCache {
      var s: DriverStatus :| w.statusCache[d] == StatusName(s);
      NoStatusIsNamedOnline(s);
    }
  }

  /** After the job no block is left for a rematched request, and a due trip
      is no longer due on a rerun. */
  lemma AutoRematchClearsBlocks(w: World, cfg: Settings, now: int, k: nat)
    requires RematchDue(w, cfg, now, k)
    ensures var r := AutoRematchJob(w, cfg, now);
            && (forall b :: b in r.blocks ==> r.blocks[b].tripRequestId != Some(w.trips[k].tripRequestId))
            && !RematchDue(r, cfg, now, k)
  {
  }

  /** A request the job re-opens is PENDING again, yet its cancelled trip
      still holds the unique request column, so creating a trip for it fails
      with a conflict for every driver at every later time. */
  lemma RematchedRequestCannotGetTrip(w: World, cfg: Settings, now: int, rid: nat, driverId: nat, later: int)
    requires rid in RematchedRequests(w, cfg, now) && driverId in w.drivers
    ensures var r := AutoRematchJob(w, cfg, now);
            && rid in r.requests && r.requests[rid].status == RequestStatus.Pending
            && TripLifecycle.CreateTripFromRequest(r, cfg, rid, driverId, later) == Err(Conflict)
  {
    var r := AutoRematchJob(w, cfg, now);
    var k :| RematchDue(w, cfg, now, k) && w.trips[k].tripRequestId == rid;
    assert k in r.trips && r.trips[k].tripRequestId == rid;
    assert HasTripFor(r, rid);
  }

  // ------------------------------------------------------------------ expiry

  /** Request `id` is PENDING with an expiry at or before `now`. */
  predicate ExpiryDue(w: World, now: int, id: nat) {
    id in w.requests && w.requests[id].status == RequestStatus.Pending
    && w.requests[id].expiresAt.Some? && w.requests[id].expiresAt.value <= now
  }

  /** Expires every due request, releasing its lock and its pending set.
      Returns the expired ids (whose users are notified). */
  function ExpiryJob(w: World, now: int): (r: (World, set<nat>))
    ensures forall id :: id in r.1 <==> ExpiryDue(w, now, id)
    ensures r.0.requests.Keys == w.requests.Keys
    ensures forall id :: id in r.1 ==> id in w.requests && r.0.requests[id] == w.requests[id].(status := RequestStatus.Expired)
    ensures forall id :: id in w.requests && id !in r.1 ==> r.0.requests[id] == w.requests[id]
    ensures r.0.locks == w.locks - r.1
    ensures forall id :: id in r.0.pending <==> id in w.pending && id !in r.1
    ensures forall id :: id in r.0.pending ==> r.0.pending[id] == w.pending[id]
    ensures r.0.(requests := w.requests, locks := w.locks, pending := w.pending) == w
  {
    var due := set id | id in w.requests && ExpiryDue(w, now, id);
    var reqs := map id | id in w.requests ::
      if id in due then w.requests[id].(status := RequestStatus.Expired) else w.requests[id];
    var pend := map id | id in w.pending && id !in due :: w.pending[id];
    (w.(requests := reqs, locks := w.locks - due, pending := pend), due)
  }

  /** Running the job twice at the same time is the same as running it once;
      the second run expires nothing. */
  lemma ExpiryJobIdempotent(w: World, now: int)
    ensures var once := ExpiryJob(w, now).0;
            && ExpiryJob(once, now).1 == {}
            && ExpiryJob(once, now).0 == once
  {
    var once := ExpiryJob(w, now).0;
    var twice := ExpiryJob(once, now).0;
    assert twice.requests == once.requests;
    assert twice.pending == once.pending;
  }

  /** At the expiry instant the job expires a request the model still
      reports as not expired. */
  lemma ExpiryJobBoundaryDisagreesWithModel(w: World, id: nat)
    requires id in w.requests && w.requests[id].status == RequestStatus.Pending
    requires w.requests[id].expiresAt.Some?
    ensures var now := w.requests[id].expiresAt.value;
            && id in ExpiryJob(w, now).1
            && !Requests.IsExpired(w.requests[id], now)
  {
  }

  /** Requests without an expiry (scheduled ones) are never expired by the job. */
  lemma ExpiryJobSparesUnexpiring(w: World, now: int, id: nat)
    requires id in w.requests && w.requests[id].expiresAt.None?
    ensures id !in ExpiryJob(w, now).1
    ensures ExpiryJob(w, now).0.requests[id] == w.requests[id]
  {
  }

  // ----------------------------------------------------------------- cleanup

  /** Deletes exactly the blocks that ended more than 24 hours before `now`. */
  function AvailabilityCleanupJob(w: World, now: int): (r: World)
    ensures forall k :: k in r.blocks <==> k in w.blocks && w.blocks[k].endTime >= now - 24 * Hour
    ensures forall k :: k in r.blocks ==> r.blocks[k] == w.blocks[k]
    ensures r.(blocks := w.blocks) == w
  {
    w.(blocks := map k | k in w.blocks && !(w.blocks[k].endTime < now - 24 * Hour) :: w.blocks[k])
  }

  /** Cleanup changes no conflict answer for a window starting at or after
      the cutoff, in particular for any window in the future. */
  lemma {:induction false} CleanupKeepsConflicts(w: World, now: int, d: nat, s: int, e: int)
    requires s >= now - 24 * Hour
    ensures HasConflict(AvailabilityCleanupJob(w, now), d, s, e) == HasConflict(w, d, s, e)
  {
    var v := AvailabilityCleanupJob(w, now);
    if HasConflict(w, d, s, e) {
      var k :| k in w.blocks && w.blocks[k].driverId == d && OverlapsWith(w.blocks[k], s, e);
      assert k in v.blocks;
    }
  }
}

=== FILE: config.dfy ===
/** The configuration the dispatch and ledger logic reads
    (rebu-project/backend/app/core/config.py), as a record with the
    shipped defaults. */
module Config {

  /** Seconds in a minute and in an hour; timestamps are integer seconds. */
  const Minute: int := 60
  const Hour: int := 3600

  /** Hard-coded in the matching service rather than configured: the number
      of nearby drivers fetched per wave, and the acceptance lock's lifetime. */
  const NearbyCount: nat := 10
  const LockTtlSeconds: nat := 10

  datatype Settings = Settings(
    matchingRadiusKm: real,
    wave1RadiusKm: real,
    wave2RadiusKm: real,
    wave3RadiusKm: real,
    offerExpirySeconds: int,
    tripRequestExpiryMinutes: int,
    reminderMinutes: seq<int>,
    confirmWindowMinutes: int,
    commissionFree: real,
    commissionPro: real,
    commissionPremium: real,
    creditLimitFree: real,
    creditLimitPro: real,
    creditLimitPremium: real
  )

  /** The values the settings class declares when no environment override is given. */
  const Defaults: Settings := Settings(
    matchingRadiusKm := 10.0,
    wave1RadiusKm := 3.0,
    wave2RadiusKm := 5.0,
    wave3RadiusKm := 10.0,
    offerExpirySeconds := 60,
    tripRequestExpiryMinutes := 15,
    reminderMinutes := [60, 15],
    confirmWindowMinutes := 30,
    commissionFree := 0.15,
    commissionPro := 0.10,
    commissionPremium := 0.05,
    creditLimitFree := 500.0,
    creditLimitPro := 1000.0,
    creditLimitPremium := 2000.0
  )

  /** Waves widen strictly, and the fallback radius covers every wave. */
  predicate RadiiWellFormed(s: Settings) {
    && 0.0 < s.wave1RadiusKm < s.wave2RadiusKm < s.wave3RadiusKm
    && s.wave3RadiusKm <= s.matchingRadiusKm
  }

  /** Paying subscribers give up a strictly smaller share, and every rate is a fraction. */
  predicate RatesWellFormed(s: Settings) {
    && 0.0 <= s.commissionPremium < s.commissionPro < s.commissionFree <= 1.0
  }

  /** Paying subscribers may run a strictly deeper negative balance. */
  predicate CreditWellFormed(s: Settings) {
    && 0.0 < s.creditLimitFree < s.creditLimitPro < s.creditLimitPremium
  }

  /** An offer lapses well before the request it belongs to. */
  predicate ExpiryWellFormed(s: Settings) {
    && 0 < s.offerExpirySeconds < s.tripRequestExpiryMinutes * Minute
  }

  predicate WellFormed(s: Settings) {
    RadiiWellFormed(s) && RatesWellFormed(s) && CreditWellFormed(s) && ExpiryWellFormed(s)
  }

  /** The shipped defaults satisfy every ordering the design relies on, and the
      reminder offsets and confirmation window are 60/15 and 30 minutes. */
  lemma DefaultsWellFormed()
    ensures WellFormed(Defaults)
    ensures Defaults.reminderMinutes == [60, 15] && Defaults.confirmWindowMinutes == 30
  {
  }
}

=== FILE: driver.dfy ===
/** Drivers with a signed wallet balance and an optional current subscription
    (rebu-project/backend/app/models/driver.py). */
module Drivers {
  import opened Wrappers
  import opened Config
  import opened Subscriptions

  datatype DriverStatus = Pending | Active | Offline | Busy | Limited | Suspended | Blocked

  /** The fields the dispatch and ledger logic read or write; identity,
      licence and profile columns are left out. */
  datatype Driver = Driver(
    status: DriverStatus,
    walletBalance: real,
    subscription: Option<Subscription>,
    fcmToken: Option<string>
  )

  /** A freshly inserted driver: awaiting approval, empty wallet, no plan. */
  function NewDriver(fcmToken: Option<string>): (d: Driver)
    ensures d.status.Pending? && d.walletBalance == 0.0 && d.subscription.None?
    ensures !IsOnline(d)
  {
    Driver(DriverStatus.Pending, 0.0, None, fcmToken)
  }

  /** Online means exactly status ACTIVE. */
  predicate IsOnline(d: Driver) {
    d.status == DriverStatus.Active
  }

  /** The negative balance a driver may carry, chosen by the tier of the
      current subscription alone. */
  function CreditLimit(cfg: Settings, d: Driver): (limit: real)
    ensures limit == cfg.creditLimitFree || limit == cfg.creditLimitPro || limit == cfg.creditLimitPremium
    ensures CreditWellFormed(cfg) ==> limit >= cfg.creditLimitFree > 0.0
  {
    match d.subscription
    case None => cfg.creditLimitFree
    case Some(s) =>
      if s.tier == Pro then cfg.creditLimitPro
      else if s.tier == Premium then cfg.creditLimitPremium
      else cfg.creditLimitFree
  }

  /** The ceiling each tier maps to, written independently of `CreditLimit`. */
  function TierCeiling(cfg: Settings, tier: SubscriptionTier): real {
    match tier
    case Free => cfg.creditLimitFree
    case Pro => cfg.creditLimitPro
    case Premium => cfg.creditLimitPremium
  }

  /** The limit is the FREE ceiling without a plan and the tier's ceiling with
      one. Status and expiry of the plan are never consulted, so an expired or
      cancelled PREMIUM plan still grants the PREMIUM ceiling. */
  lemma CreditLimitByTierOnly(cfg: Settings, d: Driver, now: int)
    ensures d.subscription.None? ==> CreditLimit(cfg, d) == cfg.creditLimitFree
    ensures d.subscription.Some? ==> CreditLimit(cfg, d) == TierCeiling(cfg, d.subscription.value.tier)
    ensures forall s: Subscription :: s.tier == Premium && !IsActive(s, now) ==>
              CreditLimit(cfg, d.(subscription := Some(s))) == cfg.creditLimitPremium
  {
  }

  /** Within limit means a balance at or above minus the limit; the boundary
      itself is within. */
  predicate IsWithinCreditLimit(cfg: Settings, d: Driver) {
    d.walletBalance >= -CreditLimit(cfg, d)
  }

  lemma WithinLimitBoundaryInclusive(cfg: Settings, d: Driver, b: real)
    requires d.walletBalance == -CreditLimit(cfg, d)
    ensures IsWithinCreditLimit(cfg, d)
    ensures !IsWithinCreditLimit(cfg, d.(walletBalance := d.walletBalance - 0.01))
    ensures b < d.walletBalance ==> !IsWithinCreditLimit(cfg, d.(walletBalance := b))
  {
  }

  /** Raising the balance never takes a driver out of limit. */
  lemma WithinLimitMonotone(cfg: Settings, d: Driver, balance: real)
    requires IsWithinCreditLimit(cfg, d) && balance >= d.walletBalance
    ensures IsWithinCreditLimit(cfg, d.(walletBalance := balance))
  {
  }
}

=== FILE: matching_service.dfy ===
/** Wave-based candidate search, offer issuing, lock-guarded acceptance and
    scheduled pre-assignment (rebu-project/backend/app/services/matching_service.py). */
module Matching {
  import opened Wrappers
  import opened Config
  import opened Drivers
  import opened Requests
  import opened Offers
  import opened Availability
  import opened State
  import opened Repositories

  /** The geospatial index: for a point, a radius in km and a count, the ids
      of online drivers within the radius, at most `count` of them. */
  type GeoQuery = (real, real, real, nat) -> seq<nat>

  /** Waves 1 to 3 use their configured radius; any other wave number falls
      back to the general matching radius. */
  function WaveRadius(cfg: Settings, wave: int): (radius: real)
    ensures RadiiWellFormed(cfg) ==> 0.0 < radius <= cfg.matchingRadiusKm
    ensures wave < 1 || wave > 3 ==> radius == cfg.matchingRadiusKm
  {
    if wave == 1 then cfg.wave1RadiusKm
    else if wave == 2 then cfg.wave2RadiusKm
    else if wave == 3 then cfg.wave3RadiusKm
    else cfg.matchingRadiusKm
  }

  /** Later waves search strictly wider, and no wave exceeds the fallback. */
  lemma WavesWiden(cfg: Settings)
    requires RadiiWellFormed(cfg)
    ensures WaveRadius(cfg, 1) < WaveRadius(cfg, 2) < WaveRadius(cfg, 3)
    ensures forall wave :: WaveRadius(cfg, wave) <= cfg.matchingRadiusKm
  {
  }

  predicate NoDuplicates(s: seq<nat>) {
    forall i, j :: 0 <= i < j < |s| ==> s[i] != s[j]
  }

  /** The first `n` elements, or all of them when there are fewer. */
  function Take(s: seq<nat>, n: nat): (r: seq<nat>)
    ensures |r| == if |s| <= n then |s| else n
    ensures forall i :: 0 <= i < |r| ==> r[i] == s[i]
    ensures forall x :: x in r ==> x in s
  {
    if |s| <= n then s else s[..n]
  }

  /** The nearby query of one wave, capped at `NearbyCount` ids. */
  function Nearby(cfg: Settings, q: TripRequest, wave: int, geo: GeoQuery): seq<nat> {
    Take(geo(q.pickup.lat, q.pickup.lon, WaveRadius(cfg, wave), NearbyCount), NearbyCount)
  }

  /** A nearby driver may be offered the request: it exists, is ACTIVE, holds
      no pending offer for the request and is within its credit limit. */
  predicate Eligible(w: World, cfg: Settings, pending: set<nat>, d: nat) {
    && d in w.drivers
    && w.drivers[d].status == DriverStatus.Active
    && d !in pending
    && IsWithinCreditLimit(cfg, w.drivers[d])
  }

  /** Keeps each eligible id once. The order the store returns rows in is not
      specified; this keeps first-seen order, and nothing relies on it. */
  function SelectEligible(w: World, cfg: Settings, pending: set<nat>, ids: seq<nat>): (r: seq<nat>)
    ensures forall d :: d in r <==> d in ids && Eligible(w, cfg, pending, d)
    ensures NoDuplicates(r)
    ensures |r| <= |ids|
    decreases |ids|
  {
    if ids == [] then []
    else
      var rest := SelectEligible(w, cfg, pending, ids[..|ids| - 1]);
      var d := ids[|ids| - 1];
      assert ids == ids[..|ids| - 1] + [d];
      if Eligible(w, cfg, pending, d) && d !in rest then rest + [d] else rest
  }

  /** Candidates of one wave: empty when nothing is nearby; otherwise exactly
      the eligible nearby drivers, each once, at most `NearbyCount` of them. */
  function FindDriversForOnDemandTrip(w: World, cfg: Settings, requestId: nat, q: TripRequest,
                                      wave: int, geo: GeoQuery): (r: seq<nat>)
    ensures Nearby(cfg, q, wave, geo) == [] ==> r == []
    ensures forall d :: d in r <==> d in Nearby(cfg, q, wave, geo) && Eligible(w, cfg, PendingFor(w, requestId), d)
    ensures NoDuplicates(r)
    ensures |r| <= NearbyCount
  {
    var nearby := Nearby(cfg, q, wave, geo);
    if nearby == [] then []
    else SelectEligible(w, cfg, PendingFor(w, requestId), nearby)
  }

  /** A driver already holding a pending offer for the request is never a
      candidate again, whatever the wave. */
  lemma PendingDriversExcluded(w: World, cfg: Settings, requestId: nat, q: TripRequest,
                               wave: int, geo: GeoQuery, d: nat)
    requires d in PendingFor(w, requestId)
    ensures d !in FindDriversForOnDemandTrip(w, cfg, requestId, q, wave, geo)
  {
  }

  function AddPendingOffer(w: World, requestId: nat, d: nat): World {
    w.(pending := w.pending[requestId := PendingFor(w, requestId) + {d}])
  }

  /** Creates one PENDING offer per listed driver, in list order under
      consecutive ids, all with the given fare and expiry, and records each
      driver as holding a pending offer for the request. */
  function OfferEach(w: World, requestId: nat, fare: real, expiresAt: int, drivers: seq<nat>, now: int): (r: World)
    ensures r.nextId == w.nextId + |drivers|
    ensures r.(offers := w.offers, pending := w.pending, nextId := w.nextId) == w
    decreases |drivers|
  {
    if drivers == [] then w
    else
      var w1 := AddPendingOffer(CreateOffer(w, requestId, drivers[0], fare, expiresAt, now), requestId, drivers[0]);
      OfferEach(w1, requestId, fare, expiresAt, drivers[1..], now)
  }

  lemma {:induction false} OfferEachOffers(w: World, requestId: nat, fare: real, expiresAt: int, drivers: seq<nat>, now: int)
    ensures var r := OfferEach(w, requestId, fare, expiresAt, drivers, now);
            && (forall i :: 0 <= i < |drivers| ==>
                  w.nextId + i in r.offers && r.offers[w.nextId + i] == NewOffer(requestId, drivers[i], fare, expiresAt, now))
            && (forall k :: k in r.offers <==> k in w.offers || w.nextId <= k < w.nextId + |drivers|)
            && (forall k :: k in w.offers && !(w.nextId <= k < w.nextId + |drivers|) ==> r.offers[k] == w.offers[k])
    decreases |drivers|
  {
    if drivers != [] {
      var w1 := AddPendingOffer(CreateOffer(w, requestId, drivers[0], fare, expiresAt, now), requestId, drivers[0]);
      OfferEachOffers(w1, requestId, fare, expiresAt, drivers[1..], now);
      assert forall i :: 1 <= i < |drivers| ==> drivers[i] == drivers[1..][i - 1];
    }
  }

  lemma {:induction false} OfferEachPending(w: World, requestId: nat, fare: real, expiresAt: int, drivers: seq<nat>, now: int)
    ensures var r := OfferEach(w, requestId, fare, expiresAt, drivers, now);
            && PendingFor(r, requestId) == PendingFor(w, requestId) + (set d | d in drivers)
            && forall k :: k != requestId ==> PendingFor(r, k) == PendingFor(w, k)
    decreases |drivers|
  {
    if drivers != [] {
      var w1 := AddPendingOffer(CreateOffer(w, requestId, drivers[0], fare, expiresAt, now), requestId, drivers[0]);
      OfferEachPending(w1, requestId, fare, expiresAt, drivers[1..], now);
      assert (set d | d in drivers) == {drivers[0]} + (set d | d in drivers[1..]);
    }
  }

  /** Sends the request to each listed driver: every offer carries the
      request's estimated fare and one shared expiry `now + offer TTL`. An
      empty list does nothing. Push notifications are best-effort and have no
      effect on the state. */
  function SendOffersToDrivers(w: World, cfg: Settings, requestId: nat, q: TripRequest,
                               drivers: seq<nat>, now: int): (r: World)
    ensures drivers == [] ==> r == w
    ensures forall i :: 0 <= i < |drivers| ==>
              && w.nextId + i in r.offers
              && r.offers[w.nextId + i].driverId == drivers[i]
              && r.offers[w.nextId + i].tripRequestId == requestId
              && r.offers[w.nextId + i].status.Pending?
              && r.offers[w.nextId + i].offeredFare == q.estimatedFare
              && r.offers[w.nextId + i].expiresAt == now + cfg.offerExpirySeconds
    ensures PendingFor(r, requestId) == PendingFor(w, requestId) + (set d | d in drivers)
    ensures forall k :: k != requestId ==> PendingFor(r, k) == PendingFor(w, k)
    ensures forall k :: k in w.offers && !(w.nextId <= k < w.nextId + |drivers|) ==> k in r.offers && r.offers[k] == w.offers[k]
    ensures forall k :: k in r.offers <==> k in w.offers || w.nextId <= k < w.nextId + |drivers|
    ensures r.(offers := w.offers, pending := w.pending, nextId := w.nextId) == w
  {
    var expiresAt := now + cfg.offerExpirySeconds;
    OfferEachOffers(w, requestId, q.estimatedFare, expiresAt, drivers, now);
    OfferEachPending(w, requestId, q.estimatedFare, expiresAt, drivers, now);
    OfferEach(w, requestId, q.estimatedFare, expiresAt, drivers, now)
  }

  /** With fresh ids, issuing offers to distinct drivers gives each listed
      driver exactly one new offer, the one at its position in the list. */
  lemma OneNewOfferPerDriver(w: World, cfg: Settings, requestId: nat, q: TripRequest, drivers: seq<nat>, now: int, i: nat)
    requires FreshIds(w) && NoDuplicates(drivers) && i < |drivers|
    ensures var r := SendOffersToDrivers(w, cfg, requestId, q, drivers, now);
            && w.nextId + i in r.offers && w.nextId + i !in w.offers
            && forall k :: k in r.offers && k !in w.offers && r.offers[k].driverId == drivers[i] ==> k == w.nextId + i
  {
    var r := SendOffersToDrivers(w, cfg, requestId, q, drivers, now);
    forall k | k in r.offers && k !in w.offers && r.offers[k].driverId == drivers[i]
      ensures k == w.nextId + i
    {
      var j := k - w.nextId;
      assert 0 <= j < |drivers| && r.offers[w.nextId + j].driverId == drivers[j];
    }
  }

  /** Accepts an offer for its driver. Fails with nothing changed when the
      offer is missing or another driver's, when it is past its expiry, or when
      the request's lock is held. Otherwise the lock is taken (and left held),
      the offer becomes ACCEPTED, the request MATCHED, and the request's
      pending set is cleared. Neither the offer's nor the request's current
      status is checked, and sibling offers are left as they are. */
  function AcceptOffer(w: World, offerId: nat, driverId: nat, now: int): (r: Result<World>)
    ensures offerId !in w.offers || w.offers[offerId].driverId != driverId ==> r == Err(NotFound)
    ensures offerId in w.offers && w.offers[offerId].driverId == driverId && Offers.IsExpired(w.offers[offerId], now) ==>
              r == Err(InvalidState)
    ensures (offerId in w.offers && w.offers[offerId].driverId == driverId && !Offers.IsExpired(w.offers[offerId], now)
             && w.offers[offerId].tripRequestId in w.locks) ==> r == Err(Conflict)
    ensures r.Ok? <==>
      && offerId in w.offers && w.offers[offerId].driverId == driverId
      && !Offers.IsExpired(w.offers[offerId], now)
      && w.offers[offerId].tripRequestId !in w.locks
      && w.offers[offerId].tripRequestId in w.requests
    ensures r.Ok? ==>
      var o := w.offers[offerId];
      var rid := o.tripRequestId;
      var v := r.value;
      && v.offers == w.offers[offerId := o.(status := Accepted, respondedAt := Some(now))]
      && v.requests == w.requests[rid := w.requests[rid].(status := Matched, matchedAt := Some(now))]
      && v.locks == w.locks + {rid}
      && rid !in v.pending
      && (forall k :: k in w.pending && k != rid ==> k in v.pending && v.pending[k] == w.pending[k])
      && v.(offers := w.offers, requests := w.requests, locks := w.locks, pending := w.pending) == w
  {
    if offerId !in w.offers || w.offers[offerId].driverId != driverId then Err(NotFound)
    else
      var o := w.offers[offerId];
      if Offers.IsExpired(o, now) then Err(InvalidState)
      else if o.tripRequestId in w.locks then Err(Conflict)
      else if o.tripRequestId !in w.requests then Err(NotFound)
      else
        var rid := o.tripRequestId;
        var w1 := UpdateOfferStatus(w, offerId, Accepted, now).0;
        var q := w.requests[rid];
        Ok(w1.(requests := w1.requests[rid := q.(status := Matched, matchedAt := Some(now))],
               locks := w1.locks + {rid},
               pending := w1.pending - {rid}))
  }

  /** Lock expiry, as an explicit step: the lease on the request lapses. */
  function LockLapses(w: World, requestId: nat): (r: World)
    ensures requestId !in r.locks && r.locks == w.locks - {requestId}
    ensures r.(locks := w.locks) == w
  {
    w.(locks := w.locks - {requestId})
  }

  /** An accept attempt: offer id, calling driver, time. */
  datatype Attempt = Attempt(offerId: nat, driverId: nat, at: int)

  /** Runs accept attempts in turn, with nothing else in between; a failed
      attempt leaves the world as it was. Returns the final world and how
      many attempts on offers of request `rid` succeeded. */
  function RunAccepts(w: World, attempts: seq<Attempt>, rid: nat): (r: (World, nat))
    ensures w.locks <= r.0.locks
    decreases |attempts|
  {
    if attempts == [] then (w, 0)
    else
      var a := attempts[0];
      var step := AcceptOffer(w, a.offerId, a.driverId, a.at);
      if step.Err? then RunAccepts(w, attempts[1..], rid)
      else
        var hit := if w.offers[a.offerId].tripRequestId == rid then 1 else 0;
        var rest := RunAccepts(step.value, attempts[1..], rid);
        (rest.0, rest.1 + hit)
  }

  /** Within one lock lifetime at most one accept per request succeeds: from
      a held lock none does, and from a free lock at most one does. */
  lemma {:induction false} AtMostOneAcceptPerLock(w: World, attempts: seq<Attempt>, rid: nat)
    ensures rid in w.locks ==> RunAccepts(w, attempts, rid).1 == 0
    ensures RunAccepts(w, attempts, rid).1 <= 1
    decreases |attempts|
  {
    if attempts != [] {
      var a := attempts[0];
      var step := AcceptOffer(w, a.offerId, a.driverId, a.at);
      if step.Err? {
        AtMostOneAcceptPerLock(w, attempts[1..], rid);
      } else {
        AtMostOneAcceptPerLock(step.value, attempts[1..], rid);
        if w.offers[a.offerId].tripRequestId == rid {
          assert rid in step.value.locks;
        }
      }
    }
  }

  /** Once the lock lapses, a sibling offer of a request that is already
      MATCHED can be accepted as well, so two offers of one request end up
      ACCEPTED. */
  lemma SecondAcceptAfterLockLapse(w: World, o1: nat, o2: nat, d1: nat, d2: nat, now: int)
    requires o1 != o2 && o1 in w.offers && o2 in w.offers
    requires w.offers[o1].driverId == d1 && w.offers[o2].driverId == d2
    requires w.offers[o1].tripRequestId == w.offers[o2].tripRequestId
    requires !Offers.IsExpired(w.offers[o1], now) && !Offers.IsExpired(w.offers[o2], now)
    requires w.offers[o1].tripRequestId !in w.locks && w.offers[o1].tripRequestId in w.requests
    ensures var rid := w.offers[o1].tripRequestId;
            var w1 := AcceptOffer(w, o1, d1, now).value;
            && AcceptOffer(w1, o2, d2, now) == Err(Conflict)
            && AcceptOffer(LockLapses(w1, rid), o2, d2, now).Ok?
            && var w2 := AcceptOffer(LockLapses(w1, rid), o2, d2, now).value;
               w2.offers[o1].status.Accepted? && w2.offers[o2].status.Accepted?
  {
  }

  /** Drivers free for a scheduled request: ACTIVE, no block conflicting
      with the request's window, and within credit limit. The conflict query
      runs once per ACTIVE driver, so a request with a missing window bound
      fails as soon as there is one such driver, and yields no driver when
      there is none. The radius argument is accepted and ignored. */
  function FindAvailableDriversForScheduledTrip(w: World, cfg: Settings, q: TripRequest, radiusKm: real): (r: Result<set<nat>>)
    ensures r.Err? <==> (q.scheduledStartAt.None? || q.scheduledEndAt.None?)
                        && exists d :: d in w.drivers && IsOnline(w.drivers[d])
    ensures r.Err? ==> r.error == ValidationError
    ensures r.Ok? ==> forall d :: d in r.value <==>
      && d in w.drivers && IsOnline(w.drivers[d]) && IsWithinCreditLimit(cfg, w.drivers[d])
      && (q.scheduledStartAt.Some? && q.scheduledEndAt.Some? ==>
            forall k :: k in w.blocks && w.blocks[k].driverId == d ==>
              !OverlapsWith(w.blocks[k], q.scheduledStartAt.value, q.scheduledEndAt.value))
  {
    var active := GetActiveDrivers(w);
    if active == {} then Ok({})
    else if q.scheduledStartAt.None? || q.scheduledEndAt.None? then Err(ValidationError)
    else
      Ok(set d | d in active
                 && !HasConflict(w, d, q.scheduledStartAt.value, q.scheduledEndAt.value)
                 && IsWithinCreditLimit(cfg, w.drivers[d]))
  }

  lemma ScheduledSearchIgnoresRadius(w: World, cfg: Settings, q: TripRequest, r1: real, r2: real)
    ensures FindAvailableDriversForScheduledTrip(w, cfg, q, r1) == FindAvailableDriversForScheduledTrip(w, cfg, q, r2)
  {
  }

  /** Reserves a driver for a scheduled request: fails when the request or
      driver is missing, the driver is not online, the window has a missing
      bound (the conflict query refuses it), or one of its blocks conflicts
      with the window. On success it
      inserts one block [start, end) tagged with the request and records the
      driver on the request. */
  function PreAssignDriverToScheduledTrip(w: World, requestId: nat, driverId: nat): (r: Result<World>)
    ensures r.Ok? <==>
      && requestId in w.requests && driverId in w.drivers && IsOnline(w.drivers[driverId])
      && w.requests[requestId].scheduledStartAt.Some? && w.requests[requestId].scheduledEndAt.Some?
      && !HasConflict(w, driverId, w.requests[requestId].scheduledStartAt.value, w.requests[requestId].scheduledEndAt.value)
    ensures r.Ok? ==>
      var q := w.requests[requestId];
      var v := r.value;
      && v.blocks == w.blocks[w.nextId := AvailabilityBlock(driverId, Some(requestId),
                                          q.scheduledStartAt.value, q.scheduledEndAt.value, Some("SCHEDULED_TRIP"))]
      && v.requests == w.requests[requestId := q.(preAssignedDriverId := Some(driverId))]
      && v.nextId == w.nextId + 1
      && v.(blocks := w.blocks, requests := w.requests, nextId := w.nextId) == w
  {
    if requestId !in w.requests then Err(NotFound)
    else if driverId !in w.drivers then Err(NotFound)
    else if !IsOnline(w.drivers[driverId]) then Err(InvalidState)
    else
      var q := w.requests[requestId];
      var c := HasWindowConflict(w, driverId, q.scheduledStartAt, q.scheduledEndAt);
      if c.Err? then Err(c.error)
      else if c.value then Err(Conflict)
      else
        var w1 := CreateBlock(w, driverId, Some(requestId), q.scheduledStartAt.value, q.scheduledEndAt.value,
                              Some("SCHEDULED_TRIP"));
        Ok(w1.(requests := w1.requests[requestId := q.(preAssignedDriverId := Some(driverId))]))
  }

  /** After a pre-assignment, the same driver cannot be pre-assigned to any
      request whose window overlaps the reserved one. */
  lemma PreAssignBlocksOverlappingWindow(w: World, r1: nat, r2: nat, d: nat)
    requires PreAssignDriverToScheduledTrip(w, r1, d).Ok?
    requires var v := PreAssignDriverToScheduledTrip(w, r1, d).value;
             var q1 := w.requests[r1];
             && r2 in v.requests && v.requests[r2].scheduledStartAt.Some? && v.requests[r2].scheduledEndAt.Some?
             && v.requests[r2].scheduledStartAt.value < q1.scheduledEndAt.value
             && v.requests[r2].scheduledEndAt.value > q1.scheduledStartAt.value
    ensures PreAssignDriverToScheduledTrip(PreAssignDriverToScheduledTrip(w, r1, d).value, r2, d).Err?
  {
    var v := PreAssignDriverToScheduledTrip(w, r1, d).value;
    var q2 := v.requests[r2];
    assert v.blocks[w.nextId].driverId == d;
    assert OverlapsWith(v.blocks[w.nextId], q2.scheduledStartAt.value, q2.scheduledEndAt.value);
  }

  /** With fresh ids, pre-assignment never double-books a driver. */
  lemma PreAssignKeepsNoDoubleBooking(w: World, requestId: nat, d: nat)
    requires FreshIds(w) && NoDoubleBooking(w.blocks)
    requires PreAssignDriverToScheduledTrip(w, requestId, d).Ok?
    ensures NoDoubleBooking(PreAssignDriverToScheduledTrip(w, requestId, d).value.blocks)
  {
    var v := PreAssignDriverToScheduledTrip(w, requestId, d).value;
    var nb := v.blocks[w.nextId];
    forall k | k in w.blocks && w.blocks[k].driverId == d
      ensures !OverlapsWith(nb, w.blocks[k].startTime, w.blocks[k].endTime)
      ensures !OverlapsWith(w.blocks[k], nb.startTime, nb.endTime)
    {
      OverlapSymmetric(nb, w.blocks[k]);
    }
  }
}

=== FILE: repositories.dfy ===
/** The data-access layer the services call
    (rebu-project/backend/app/repositories/__init__.py), as pure transitions
    on the world state. Each insert takes the id `nextId` and advances it. */
module Repositories {
  import opened Wrappers
  import opened Drivers
  import opened Requests
  import opened Offers
  import opened Trips
  import opened Ledger
  import opened Availability
  import opened State

  /** A world together with the ledger entry just written into it. */
  datatype Posted = Posted(world: World, entry: WalletTransaction)

  /** Appends one ledger entry whose snapshot is the driver's balance plus the
      amount, and moves the driver's balance to that same snapshot. The source
      dereferences the looked-up driver without a check, so an unknown driver
      fails here. */
  function CreateTransaction(w: World, driverId: nat, kind: TransactionType, amount: real,
                             tripId: Option<nat>, reference: Option<string>, now: int): (r: Result<Posted>)
    ensures r.Err? <==> driverId !in w.drivers
    ensures r.Err? ==> r.error == NotFound
    ensures r.Ok? ==>
      var e := r.value.entry;
      var v := r.value.world;
      && e.driverId == driverId && e.kind == kind && e.amount == amount
      && e.tripId == tripId && e.reference == reference && e.createdAt == now
      && e.balanceAfter == w.drivers[driverId].walletBalance + amount
      && v.ledger == w.ledger + [e]
      && v.drivers == w.drivers[driverId := w.drivers[driverId].(walletBalance := e.balanceAfter)]
      && v.(drivers := w.drivers, ledger := w.ledger) == w
  {
    if driverId !in w.drivers then Err(NotFound)
    else
      var d := w.drivers[driverId];
      var balanceAfter := d.walletBalance + amount;
      var e := WalletTransaction(driverId, kind, amount, balanceAfter, tripId, reference, now);
      Ok(Posted(w.(ledger := w.ledger + [e], drivers := w.drivers[driverId := d.(walletBalance := balanceAfter)]), e))
  }

  /** A single `CreateTransaction` keeps the ledger replayable: the new entry's
      snapshot and the driver's new balance both equal the replayed sum. */
  lemma CreateTransactionKeepsLedgerConsistent(w: World, driverId: nat, kind: TransactionType, amount: real,
                                               tripId: Option<nat>, reference: Option<string>, now: int)
    requires LedgerConsistent(w)
    requires CreateTransaction(w, driverId, kind, amount, tripId, reference, now).Ok?
    ensures LedgerConsistent(CreateTransaction(w, driverId, kind, amount, tripId, reference, now).value.world)
  {
    var p := CreateTransaction(w, driverId, kind, amount, tripId, reference, now).value;
    forall d | d in p.world.drivers
      ensures Chained(0.0, ForDriver(p.world.ledger, d))
      ensures p.world.drivers[d].walletBalance == Replay(0.0, ForDriver(p.world.ledger, d))
    {
      ForDriverAppend(w.ledger, p.entry, d);
      if d == driverId {
        AppendOne(0.0, ForDriver(w.ledger, d), p.entry);
      }
    }
  }

  /** One requested ledger write: driver, type and signed amount. */
  datatype Entry = Entry(driverId: nat, kind: TransactionType, amount: real)

  /** Runs `CreateTransaction` for each entry in turn; the first unknown driver fails the run. */
  function CreateEach(w: World, entries: seq<Entry>, now: int): (r: Result<World>)
    ensures r.Ok? ==> |r.value.ledger| == |w.ledger| + |entries| && r.value.ledger[..|w.ledger|] == w.ledger
    ensures r.Ok? ==> r.value.drivers.Keys == w.drivers.Keys
    decreases |entries|
  {
    if entries == [] then Ok(w)
    else
      var p := CreateTransaction(w, entries[0].driverId, entries[0].kind, entries[0].amount, None, None, now);
      if p.Err? then Err(p.error)
      else
        var rest := CreateEach(p.value.world, entries[1..], now);
        if rest.Ok? then
          assert rest.value.ledger[..|w.ledger|] == rest.value.ledger[..|p.value.world.ledger|][..|w.ledger|];
          rest
        else rest
  }

  /** For a run of ledger writes with nothing else in between, replaying each
      driver's amounts from zero reproduces every stored snapshot and the final
      balance, provided it did so before the run. */
  lemma {:induction false} CreatesAloneKeepLedgerConsistent(w: World, entries: seq<Entry>, now: int)
    requires LedgerConsistent(w)
    requires CreateEach(w, entries, now).Ok?
    ensures LedgerConsistent(CreateEach(w, entries, now).value)
    decreases |entries|
  {
    if entries != [] {
      var e := entries[0];
      CreateTransactionKeepsLedgerConsistent(w, e.driverId, e.kind, e.amount, None, None, now);
      var p := CreateTransaction(w, e.driverId, e.kind, e.amount, None, None, now);
      CreatesAloneKeepLedgerConsistent(p.value.world, entries[1..], now);
    }
  }

  /** The ids of drivers whose status is ACTIVE. */
  function GetActiveDrivers(w: World): (r: set<nat>)
    ensures forall d :: d in r <==> d in w.drivers && IsOnline(w.drivers[d])
  {
    set d | d in w.drivers && w.drivers[d].status == DriverStatus.Active
  }

  /** Some block of driver `d` starts before `e` and ends after `s`. The
      result is exactly "some block of d overlaps [s, e)". */
  function HasConflict(w: World, d: nat, s: int, e: int): (r: bool)
    ensures r <==> exists k :: k in w.blocks && w.blocks[k].driverId == d && OverlapsWith(w.blocks[k], s, e)
  {
    exists k :: k in w.blocks && w.blocks[k].driverId == d && w.blocks[k].startTime < e && w.blocks[k].endTime > s
  }

  /** Adding a block of another driver, or one that only touches [s, e),
      never changes the answer. */
  lemma ConflictNeedsOwnOverlappingBlock(w: World, d: nat, s: int, e: int, k: nat, b: AvailabilityBlock)
    requires k !in w.blocks
    requires b.driverId != d || b.endTime <= s || b.startTime >= e
    ensures HasConflict(w.(blocks := w.blocks[k := b]), d, s, e) == HasConflict(w, d, s, e)
  {
    var v := w.(blocks := w.blocks[k := b]);
    if HasConflict(v, d, s, e) {
      var j :| j in v.blocks && v.blocks[j].driverId == d && OverlapsWith(v.blocks[j], s, e);
      assert j != k && j in w.blocks;
    }
    if HasConflict(w, d, s, e) {
      var j :| j in w.blocks && w.blocks[j].driverId == d && OverlapsWith(w.blocks[j], s, e);
      assert j in v.blocks && v.blocks[j] == w.blocks[j];
    }
  }

  /** The conflict query on a request's window, whose bounds may be missing.
      The query builder refuses an ordering comparison with an absent value
      (`<` or `>` against None), so a missing bound is an error, never an
      answer; otherwise it is the conflict query. */
  function HasWindowConflict(w: World, d: nat, start: Option<int>, end: Option<int>): (r: Result<bool>)
    ensures r.Err? <==> start.None? || end.None?
    ensures r.Err? ==> r.error == ValidationError
    ensures r.Ok? ==> (r.value <==> exists k :: k in w.blocks && w.blocks[k].driverId == d
                                               && OverlapsWith(w.blocks[k], start.value, end.value))
  {
    if start.None? || end.None? then Err(ValidationError) else Ok(HasConflict(w, d, start.value, end.value))
  }

  function CreateBlock(w: World, d: nat, requestId: Option<nat>, s: int, e: int, reason: Option<string>): (r: World)
    ensures r.blocks == w.blocks[w.nextId := AvailabilityBlock(d, requestId, s, e, reason)]
    ensures r.nextId == w.nextId + 1
    ensures r.(blocks := w.blocks, nextId := w.nextId) == w
  {
    w.(blocks := w.blocks[w.nextId := AvailabilityBlock(d, requestId, s, e, reason)], nextId := w.nextId + 1)
  }

  /** Removes exactly the blocks tagged with the request. */
  function DeleteByTripRequest(w: World, requestId: nat): (r: World)
    ensures forall k :: k in r.blocks <==> k in w.blocks && w.blocks[k].tripRequestId != Some(requestId)
    ensures forall k :: k in r.blocks ==> r.blocks[k] == w.blocks[k]
    ensures r.(blocks := w.blocks) == w
  {
    w.(blocks := map k | k in w.blocks && w.blocks[k].tripRequestId != Some(requestId) :: w.blocks[k])
  }

  /** Removing blocks never creates a double booking. */
  lemma SubmapKeepsNoDoubleBooking(big: map<nat, AvailabilityBlock>, small: map<nat, AvailabilityBlock>)
    requires NoDoubleBooking(big)
    requires forall k :: k in small ==> k in big && small[k] == big[k]
    ensures NoDoubleBooking(small)
  {
  }

  /** After deleting a request's blocks, none of them is left and the rest of
      the bookings keep their no-overlap guarantee. */
  lemma DeleteByTripRequestRemovesAll(w: World, requestId: nat)
    requires NoDoubleBooking(w.blocks)
    ensures forall k :: k in DeleteByTripRequest(w, requestId).blocks ==>
              DeleteByTripRequest(w, requestId).blocks[k].tripRequestId != Some(requestId)
    ensures NoDoubleBooking(DeleteByTripRequest(w, requestId).blocks)
  {
    SubmapKeepsNoDoubleBooking(w.blocks, DeleteByTripRequest(w, requestId).blocks);
  }

  /** Sets the status and the response time of an offer, whatever its current
      status; a missing offer yields nothing and changes nothing. */
  function UpdateOfferStatus(w: World, offerId: nat, status: OfferStatus, now: int): (r: (World, Option<TripOffer>))
    ensures offerId !in w.offers ==> r == (w, None)
    ensures offerId in w.offers ==>
      && r.1 == Some(w.offers[offerId].(status := status, respondedAt := Some(now)))
      && r.0 == w.(offers := w.offers[offerId := r.1.value])
  {
    if offerId !in w.offers then (w, None)
    else
      var o := w.offers[offerId].(status := status, respondedAt := Some(now));
      (w.(offers := w.offers[offerId := o]), Some(o))
  }

  /** Some offer pairs the request with the driver, in any status. */
  predicate HasOfferForDriver(w: World, requestId: nat, d: nat) {
    exists k :: k in w.offers && w.offers[k].tripRequestId == requestId && w.offers[k].driverId == d
  }

  /** Answering an offer, whatever the answer, never changes who holds an offer. */
  lemma HasOfferSurvivesStatusUpdate(w: World, offerId: nat, status: OfferStatus, now: int, requestId: nat, d: nat)
    ensures HasOfferForDriver(UpdateOfferStatus(w, offerId, status, now).0, requestId, d) == HasOfferForDriver(w, requestId, d)
  {
    var v := UpdateOfferStatus(w, offerId, status, now).0;
    if HasOfferForDriver(w, requestId, d) {
      var k :| k in w.offers && w.offers[k].tripRequestId == requestId && w.offers[k].driverId == d;
      assert k in v.offers && v.offers[k].tripRequestId == requestId && v.offers[k].driverId == d;
    }
    if HasOfferForDriver(v, requestId, d) {
      var k :| k in v.offers && v.offers[k].tripRequestId == requestId && v.offers[k].driverId == d;
      assert k in w.offers && w.offers[k].tripRequestId == requestId && w.offers[k].driverId == d;
    }
  }

  /** Inserts a PENDING offer under the next id. */
  function CreateOffer(w: World, requestId: nat, d: nat, fare: real, expiresAt: int, now: int): (r: World)
    ensures r.offers == w.offers[w.nextId := NewOffer(requestId, d, fare, expiresAt, now)]
    ensures r.nextId == w.nextId + 1
    ensures r.(offers := w.offers, nextId := w.nextId) == w
  {
    w.(offers := w.offers[w.nextId := NewOffer(requestId, d, fare, expiresAt, now)], nextId := w.nextId + 1)
  }

  /** Inserts a trip copying user, locations and estimated fare from the
      request, with the given commission rate. The unique request column makes
      the insert fail when a trip already references the request. */
  function CreateTrip(w: World, requestId: nat, q: TripRequest, driverId: nat, vehicleId: nat,
                      rate: real, now: int): (r: Result<(World, nat)>)
    ensures r.Err? <==> HasTripFor(w, requestId)
    ensures r.Err? ==> r.error == Conflict
    ensures r.Ok? ==>
      var (v, id) := r.value;
      && id == w.nextId && v.nextId == w.nextId + 1
      && v.trips == w.trips[id := NewTrip(requestId, q, driverId, vehicleId, rate, now)]
      && v.(trips := w.trips, nextId := w.nextId) == w
  {
    if HasTripFor(w, requestId) then Err(Conflict)
    else Ok((w.(trips := w.trips[w.nextId := NewTrip(requestId, q, driverId, vehicleId, rate, now)],
                nextId := w.nextId + 1), w.nextId))
  }

  /** With fresh ids, a successful insert keeps at most one trip per request. */
  lemma CreateTripKeepsOneTripPerRequest(w: World, requestId: nat, q: TripRequest, driverId: nat,
                                         vehicleId: nat, rate: real, now: int)
    requires FreshIds(w) && OneTripPerRequest(w)
    requires CreateTrip(w, requestId, q, driverId, vehicleId, rate, now).Ok?
    ensures OneTripPerRequest(CreateTrip(w, requestId, q, driverId, vehicleId, rate, now).value.0)
    ensures FreshIds(CreateTrip(w, requestId, q, driverId, vehicleId, rate, now).value.0)
  {
    var v := CreateTrip(w, requestId, q, driverId, vehicleId, rate, now).value.0;
    forall k1, k2 | k1 in v.trips && k2 in v.trips && k1 != k2
      ensures v.trips[k1].tripRequestId != v.trips[k2].tripRequestId
    {
      if k1 == w.nextId {
        assert !(k2 in w.trips && w.trips[k2].tripRequestId == requestId);
      } else if k2 == w.nextId {
        assert !(k1 in w.trips && w.trips[k1].tripRequestId == requestId);
      }
    }
  }
}

=== FILE: schemas.dfy ===
/** Input validation of the two trip-request bodies
    (rebu-project/backend/app/schemas/trip_request.py). A body either yields
    no field error or is rejected as a whole. */
module Schemas {
  import opened Requests

  predicate ValidLatitude(lat: real) { -90.0 <= lat <= 90.0 }
  predicate ValidLongitude(lon: real) { -180.0 <= lon <= 180.0 }

  predicate ValidLocation(l: Location) { ValidLatitude(l.lat) && ValidLongitude(l.lon) }

  datatype FieldError =
    | PickupLat | PickupLon | DropoffLat | DropoffLon | Fare | StartTime | EndTime

  /** The fields both bodies share; `mode` is whatever the client sent, and
      neither endpoint reads it. */
  datatype OnDemandBody = OnDemandBody(mode: TripMode, pickup: Location, dropoff: Location, estimatedFare: real)

  datatype ScheduledBody = ScheduledBody(mode: TripMode, pickup: Location, dropoff: Location, estimatedFare: real,
                                         scheduledStartAt: int, scheduledEndAt: int)

  /** The errors of the pickup (`isPickup`) or the dropoff location. */
  function LocationErrors(l: Location, isPickup: bool): (r: set<FieldError>)
    ensures r <= (if isPickup then {PickupLat, PickupLon} else {DropoffLat, DropoffLon})
    ensures (if isPickup then PickupLat else DropoffLat) in r <==> !ValidLatitude(l.lat)
    ensures (if isPickup then PickupLon else DropoffLon) in r <==> !ValidLongitude(l.lon)
  {
    (if ValidLatitude(l.lat) then {} else {if isPickup then PickupLat else DropoffLat})
    + (if ValidLongitude(l.lon) then {} else {if isPickup then PickupLon else DropoffLon})
  }

  function BaseErrors(pickup: Location, dropoff: Location, fare: real): (r: set<FieldError>)
    ensures r <= {PickupLat, PickupLon, DropoffLat, DropoffLon, Fare}
    ensures r == {} <==> ValidLocation(pickup) && ValidLocation(dropoff) && fare > 0.0
    ensures Fare in r <==> fare <= 0.0
  {
    LocationErrors(pickup, true) + LocationErrors(dropoff, false)
    + (if fare > 0.0 then {} else {Fare})
  }

  /** An on-demand body is accepted iff both locations lie within the
      inclusive coordinate bounds and the fare is strictly positive. */
  function ValidateOnDemand(b: OnDemandBody): (r: set<FieldError>)
    ensures r == {} <==> ValidLocation(b.pickup) && ValidLocation(b.dropoff) && b.estimatedFare > 0.0
  {
    BaseErrors(b.pickup, b.dropoff, b.estimatedFare)
  }

  /** A scheduled body additionally needs a start strictly after `now` and,
      only when the start passed, an end strictly after the start. */
  function ValidateScheduled(b: ScheduledBody, now: int): (r: set<FieldError>)
    ensures StartTime in r <==> b.scheduledStartAt <= now
    ensures EndTime in r <==> b.scheduledStartAt > now && b.scheduledEndAt <= b.scheduledStartAt
    ensures r - {StartTime, EndTime} == BaseErrors(b.pickup, b.dropoff, b.estimatedFare)
  {
    var startErrors := if b.scheduledStartAt <= now then {StartTime} else {};
    var endErrors := if StartTime !in startErrors && b.scheduledEndAt <= b.scheduledStartAt then {EndTime} else {};
    BaseErrors(b.pickup, b.dropoff, b.estimatedFare) + startErrors + endErrors
  }

  /** An accepted scheduled body has a non-empty window in the future. */
  lemma AcceptedWindowIsFutureAndNonEmpty(b: ScheduledBody, now: int)
    requires ValidateScheduled(b, now) == {}
    ensures now < b.scheduledStartAt < b.scheduledEndAt
    ensures ValidLocation(b.pickup) && ValidLocation(b.dropoff) && b.estimatedFare > 0.0
  {
    assert StartTime !in ValidateScheduled(b, now);
    assert EndTime !in ValidateScheduled(b, now);
    assert BaseErrors(b.pickup, b.dropoff, b.estimatedFare) == {};
  }

  /** A start in the past hides an inverted window: only the start is reported. */
  lemma PastStartHidesEndError(b: ScheduledBody, now: int)
    requires b.scheduledStartAt <= now && b.scheduledEndAt <= b.scheduledStartAt
    ensures StartTime in ValidateScheduled(b, now) && EndTime !in ValidateScheduled(b, now)
  {
  }

  /** Coordinate bounds are inclusive: the poles and the antimeridian pass. */
  lemma CoordinateBoundsInclusive(address: string)
    ensures ValidLocation(Location(address, 90.0, 180.0)) && ValidLocation(Location(address, -90.0, -180.0))
    ensures !ValidLocation(Location(address, 90.5, 0.0)) && !ValidLocation(Location(address, 0.0, -180.5))
  {
  }
}

=== FILE: subscription.dfy ===
/** Driver subscription plans (rebu-project/backend/app/models/subscription.py).
    A subscription is read-only input to the commission-rate and credit-limit lookups. */
module Subscriptions {
  import opened Wrappers

  datatype SubscriptionTier = Free | Pro | Premium

  datatype SubscriptionStatus = Active | Expired | Cancelled

  /** `expiresAt` is absent for plans that never lapse. */
  datatype Subscription = Subscription(
    tier: SubscriptionTier,
    status: SubscriptionStatus,
    startsAt: int,
    expiresAt: Option<int>
  )

  /** Active means ACTIVE status and, when an expiry is recorded, the current
      time not yet past it; the start of the validity window is not consulted. */
  predicate IsActive(s: Subscription, now: int) {
    if !s.status.Active? then false
    else if s.expiresAt.Some? && now > s.expiresAt.value then false
    else true
  }

  /** Any status other than ACTIVE makes a subscription inactive, whatever the time. */
  lemma InactiveUnlessActiveStatus(s: Subscription, now: int)
    requires !s.status.Active?
    ensures !IsActive(s, now)
  {
  }

  /** With an expiry recorded, an ACTIVE subscription is inactive exactly when
      the time is strictly past it, so it is still active at the expiry instant. */
  lemma ActiveUntilExpiryInclusive(s: Subscription, now: int)
    requires s.status.Active? && s.expiresAt.Some?
    ensures IsActive(s, now) <==> now <= s.expiresAt.value
    ensures IsActive(s, s.expiresAt.value)
  {
  }

  /** An ACTIVE subscription without an expiry is active at every time. */
  lemma NoExpiryMeansAlwaysActive(s: Subscription, now: int)
    requires s.status.Active? && s.expiresAt.None?
    ensures IsActive(s, now)
  {
  }

  /** Lapsing by time is permanent: inactive at `now` stays inactive later. */
  lemma InactiveStaysInactive(s: Subscription, now: int, later: int)
    requires !IsActive(s, now) && now <= later
    ensures !IsActive(s, later)
  {
  }
}

=== FILE: trip.dfy ===
/** Trips created from matched requests (rebu-project/backend/app/models/trip.py). */
module Trips {
  import opened Wrappers
  import opened Requests

  datatype TripStatus = Confirmed | DriverArriving | Arrived | InProgress | Completed | Cancelled

  /** The fields the lifecycle and ledger logic read or write; ratings,
      payment method and actual distance are left out. */
  datatype Trip = Trip(
    tripRequestId: nat,
    userId: nat,
    driverId: nat,
    vehicleId: nat,
    pickup: Location,
    dropoff: Location,
    estimatedFare: real,
    finalFare: Option<real>,
    commissionRate: real,
    commissionAmount: Option<real>,
    commissionCharged: bool,
    status: TripStatus,
    createdAt: int,
    pickedUpAt: Option<int>,
    completedAt: Option<int>,
    cancelledAt: Option<int>,
    cancelledBy: Option<string>,
    cancellationReason: Option<string>
  )

  /** Active: confirmed and not yet completed or cancelled. */
  predicate IsActive(t: Trip) {
    t.status in {Confirmed, DriverArriving, Arrived, InProgress}
  }

  predicate IsFinished(t: Trip) {
    t.status in {Completed, TripStatus.Cancelled}
  }

  /** Every trip is active or finished, never both. */
  lemma ActiveXorFinished(t: Trip)
    ensures IsActive(t) != IsFinished(t)
  {
    match t.status
    case Confirmed =>
    case DriverArriving =>
    case Arrived =>
    case InProgress =>
    case Completed =>
    case Cancelled =>
  }

  /** A newly inserted trip: CONFIRMED, no commission charged yet. */
  function NewTrip(requestId: nat, q: TripRequest, driverId: nat, vehicleId: nat,
                   rate: real, now: int): (t: Trip)
    ensures t.status.Confirmed? && !t.commissionCharged && IsActive(t)
    ensures t.tripRequestId == requestId && t.userId == q.userId && t.driverId == driverId
    ensures t.pickup == q.pickup && t.dropoff == q.dropoff && t.estimatedFare == q.estimatedFare
    ensures t.commissionRate == rate && t.finalFare.None? && t.commissionAmount.None?
  {
    Trip(requestId, q.userId, driverId, vehicleId, q.pickup, q.dropoff, q.estimatedFare,
         None, rate, None, false, Confirmed, now, None, None, None, None, None)
  }
}

=== FILE: trip_offer.dfy ===
/** Offers of a request to one driver (rebu-project/backend/app/models/trip_offer.py). */
module Offers {
  import opened Wrappers

  datatype OfferStatus = Pending | Accepted | Rejected | Expired

  datatype TripOffer = TripOffer(
    tripRequestId: nat,
    driverId: nat,
    offeredFare: real,
    status: OfferStatus,
    createdAt: int,
    expiresAt: int,
    respondedAt: Option<int>
  )

  /** A newly inserted offer: PENDING and not yet answered. */
  function NewOffer(requestId: nat, driverId: nat, fare: real, expiresAt: int, now: int): (o: TripOffer)
    ensures o.status.Pending? && o.respondedAt.None?
    ensures o.tripRequestId == requestId && o.driverId == driverId
    ensures o.offeredFare == fare && o.expiresAt == expiresAt && o.createdAt == now
  {
    TripOffer(requestId, driverId, fare, OfferStatus.Pending, now, expiresAt, None)
  }

  /** Expired strictly after the expiry instant. */
  predicate IsExpired(o: TripOffer, now: int) {
    now > o.expiresAt
  }

  lemma OfferExpiryStrict(o: TripOffer)
    ensures !IsExpired(o, o.expiresAt) && IsExpired(o, o.expiresAt + 1)
  {
  }

  /** Once expired, an offer is expired at every later time. */
  lemma OfferExpiryMonotone(o: TripOffer, now: int, later: int)
    requires IsExpired(o, now) && now <= later
    ensures IsExpired(o, later)
  {
  }

  lemma FourOfferStatuses(s: OfferStatus)
    ensures s == OfferStatus.Pending || s == Accepted || s == Rejected || s == OfferStatus.Expired
  {
  }
}

=== FILE: trip_request.dfy ===
/** Trip requests, on-demand or scheduled
    (rebu-project/backend/app/models/trip_request.py). */
module Requests {
  import opened Wrappers

  datatype TripMode = OnDemand | Scheduled

  datatype RequestStatus = Pending | Matched | Expired | Cancelled

  /** A pickup or drop-off point; coordinates in degrees. */
  datatype Location = Location(address: string, lat: real, lon: real)

  /** The fields the dispatch logic reads or writes; cargo, vehicle-type and
      route-estimate columns are left out. */
  datatype TripRequest = TripRequest(
    userId: nat,
    mode: TripMode,
    pickup: Location,
    dropoff: Location,
    estimatedFare: real,
    scheduledStartAt: Option<int>,
    scheduledEndAt: Option<int>,
    preAssignedDriverId: Option<nat>,
    reminder60Sent: bool,
    reminder15Sent: bool,
    status: RequestStatus,
    expiresAt: Option<int>,
    createdAt: int,
    matchedAt: Option<int>
  )

  /** A newly inserted request: PENDING, unassigned, no reminder sent. */
  function NewRequest(userId: nat, mode: TripMode, pickup: Location, dropoff: Location, fare: real,
                      start: Option<int>, end: Option<int>, expiresAt: Option<int>, now: int): (q: TripRequest)
    ensures q.status.Pending? && !q.reminder60Sent && !q.reminder15Sent
    ensures q.preAssignedDriverId.None? && q.matchedAt.None?
    ensures q.userId == userId && q.mode == mode && q.pickup == pickup && q.dropoff == dropoff
    ensures q.estimatedFare == fare && q.scheduledStartAt == start && q.scheduledEndAt == end
    ensures q.expiresAt == expiresAt && q.createdAt == now
  {
    TripRequest(userId, mode, pickup, dropoff, fare, start, end, None, false, false,
                RequestStatus.Pending, expiresAt, now, None)
  }

  predicate IsScheduled(q: TripRequest) {
    q.mode == Scheduled
  }

  predicate IsOnDemand(q: TripRequest) {
    q.mode == OnDemand
  }

  /** Never expired without an expiry; otherwise expired strictly after it. */
  predicate IsExpired(q: TripRequest, now: int) {
    if q.expiresAt.None? then false
    else now > q.expiresAt.value
  }

  lemma ExactlyOneMode(q: TripRequest)
    ensures IsScheduled(q) != IsOnDemand(q)
  {
  }

  lemma RequestExpiryCases(q: TripRequest, now: int)
    ensures q.expiresAt.None? ==> !IsExpired(q, now)
    ensures q.expiresAt.Some? ==> (IsExpired(q, now) <==> now > q.expiresAt.value)
  {
  }
}

=== FILE: trip_service.dfy ===
/** Request creation and the trip lifecycle: creating a trip from an accepted
    request, starting it and completing it
    (rebu-project/backend/app/services/trip_service.py). */
module TripLifecycle {
  import opened Wrappers
  import opened Config
  import opened Drivers
  import opened Requests
  import opened Trips
  import opened Ledger
  import opened State
  import opened Repositories
  import WalletService

  /** A world after an insert, with the id of the inserted row. */
  datatype Created = Created(world: World, id: nat)

  function InsertRequest(w: World, q: TripRequest): (r: Created)
    ensures r.id == w.nextId && r.world.nextId == w.nextId + 1
    ensures r.world.requests == w.requests[r.id := q]
    ensures r.world.(requests := w.requests, nextId := w.nextId) == w
  {
    Created(w.(requests := w.requests[w.nextId := q], nextId := w.nextId + 1), w.nextId)
  }

  /** An ON_DEMAND request, PENDING, expiring `tripRequestExpiryMinutes` after
      creation and with no scheduled window. */
  function CreateOnDemandTrip(w: World, cfg: Settings, userId: nat, pickup: Location, dropoff: Location,
                              fare: real, now: int): (r: Created)
    ensures r.id == w.nextId && r.world.nextId == w.nextId + 1
    ensures r.id in r.world.requests && r.world.requests == w.requests[r.id := r.world.requests[r.id]]
    ensures var q := r.world.requests[r.id];
            && IsOnDemand(q) && q.status.Pending? && q.userId == userId
            && q.pickup == pickup && q.dropoff == dropoff && q.estimatedFare == fare
            && q.expiresAt == Some(now + cfg.tripRequestExpiryMinutes * Minute)
            && q.scheduledStartAt.None? && q.scheduledEndAt.None? && q.createdAt == now
    ensures r.world.(requests := w.requests, nextId := w.nextId) == w
  {
    InsertRequest(w, NewRequest(userId, OnDemand, pickup, dropoff, fare, None, None,
                                Some(now + cfg.tripRequestExpiryMinutes * Minute), now))
  }

  /** A fresh on-demand request is live for exactly its configured lifetime:
      not expired up to and including `now + TTL`, expired strictly after. */
  lemma OnDemandRequestLifetime(w: World, cfg: Settings, userId: nat, pickup: Location, dropoff: Location,
                                fare: real, now: int, later: int)
    requires ExpiryWellFormed(cfg)
    ensures var q := CreateOnDemandTrip(w, cfg, userId, pickup, dropoff, fare, now);
            var req := q.world.requests[q.id];
            && !Requests.IsExpired(req, now)
            && (Requests.IsExpired(req, later) <==> later > now + cfg.tripRequestExpiryMinutes * Minute)
  {
  }

  /** A SCHEDULED request, PENDING, storing its window and never expiring. */
  function CreateScheduledTrip(w: World, userId: nat, pickup: Location, dropoff: Location, fare: real,
                               start: int, end: int, now: int): (r: Created)
    ensures r.id == w.nextId && r.world.nextId == w.nextId + 1
    ensures r.id in r.world.requests && r.world.requests == w.requests[r.id := r.world.requests[r.id]]
    ensures var q := r.world.requests[r.id];
            && IsScheduled(q) && q.status.Pending? && q.userId == userId
            && q.pickup == pickup && q.dropoff == dropoff && q.estimatedFare == fare
            && q.scheduledStartAt == Some(start) && q.scheduledEndAt == Some(end)
            && q.expiresAt.None? && !q.reminder60Sent && !q.reminder15Sent
            && q.preAssignedDriverId.None?
    ensures r.world.(requests := w.requests, nextId := w.nextId) == w
  {
    InsertRequest(w, NewRequest(userId, Scheduled, pickup, dropoff, fare, Some(start), Some(end), None, now))
  }

  lemma ScheduledRequestNeverExpires(w: World, userId: nat, pickup: Location, dropoff: Location, fare: real,
                                     start: int, end: int, now: int, later: int)
    ensures var c := CreateScheduledTrip(w, userId, pickup, dropoff, fare, start, end, now);
            !Requests.IsExpired(c.world.requests[c.id], later)
  {
  }

  /** The placeholder vehicle every trip is created with. */
  const PlaceholderVehicle: nat := 1

  /** Creates the trip for an accepted request: fails when the request or the
      driver is missing, or when a trip already references the request.
      Otherwise the trip is CONFIRMED with the driver's current commission rate
      frozen on it, and the driver becomes BUSY. */
  function CreateTripFromRequest(w: World, cfg: Settings, requestId: nat, driverId: nat, now: int): (r: Result<Created>)
    ensures requestId !in w.requests || driverId !in w.drivers ==> r == Err(NotFound)
    ensures r.Ok? <==> requestId in w.requests && driverId in w.drivers && !HasTripFor(w, requestId)
    ensures r.Err? && requestId in w.requests && driverId in w.drivers ==> r.error == Conflict
    ensures r.Ok? ==>
      var v := r.value.world;
      var id := r.value.id;
      var d := w.drivers[driverId];
      && id == w.nextId && id in v.trips && v.nextId == w.nextId + 1
      && v.trips == w.trips[id := v.trips[id]]
      && v.trips[id].status.Confirmed? && !v.trips[id].commissionCharged
      && v.trips[id].tripRequestId == requestId && v.trips[id].driverId == driverId
      && v.trips[id].userId == w.requests[requestId].userId
      && v.trips[id].estimatedFare == w.requests[requestId].estimatedFare
      && v.trips[id].vehicleId == PlaceholderVehicle
      && v.trips[id].commissionRate == WalletService.CommissionRate(cfg, d, now)
      && v.drivers == w.drivers[driverId := d.(status := Busy)]
      && v.(trips := w.trips, drivers := w.drivers, nextId := w.nextId) == w
  {
    if requestId !in w.requests then Err(NotFound)
    else if driverId !in w.drivers then Err(NotFound)
    else
      var d := w.drivers[driverId];
      var rate := TripCommissionRate(cfg, d, now);
      SameRateAsWalletService(cfg, d, now);
      var c := CreateTrip(w, requestId, w.requests[requestId], driverId, PlaceholderVehicle, rate, now);
      if c.Err? then Err(c.error)
      else
        var (v, id) := c.value;
        Ok(Created(v.(drivers := v.drivers[driverId := d.(status := Busy)]), id))
  }

  /** The trip service's own copy of the commission-rate lookup, used to
      freeze a rate on a new trip: FREE without a plan or with an inactive
      one, otherwise the rate of the plan's tier. */
  function TripCommissionRate(cfg: Settings, d: Driver, now: int): (rate: real)
    ensures rate == cfg.commissionFree || rate == cfg.commissionPro || rate == cfg.commissionPremium
  {
    if d.subscription.None? then cfg.commissionFree
    else
      var s := d.subscription.value;
      if !Subscriptions.IsActive(s, now) then cfg.commissionFree
      else
        match s.tier
        case Premium => cfg.commissionPremium
        case Pro => cfg.commissionPro
        case Free => cfg.commissionFree
  }

  /** The two services' rate lookups agree on every driver at every time, so
      the rate frozen at creation is the one the wallet service would charge
      at that instant. */
  lemma SameRateAsWalletService(cfg: Settings, d: Driver, now: int)
    ensures TripCommissionRate(cfg, d, now) == WalletService.CommissionRate(cfg, d, now)
  {
  }

  /** The driver starts a trip: only its own trip, and only from ARRIVED. */
  function StartTrip(w: World, tripId: nat, driverId: nat, now: int): (r: Result<World>)
    ensures tripId !in w.trips || w.trips[tripId].driverId != driverId ==> r == Err(NotFound)
    ensures r.Ok? <==> tripId in w.trips && w.trips[tripId].driverId == driverId && w.trips[tripId].status.Arrived?
    ensures r.Ok? ==>
      r.value == w.(trips := w.trips[tripId := w.trips[tripId].(status := InProgress, pickedUpAt := Some(now))])
  {
    if tripId !in w.trips || w.trips[tripId].driverId != driverId then Err(NotFound)
    else if !w.trips[tripId].status.Arrived? then Err(InvalidState)
    else Ok(w.(trips := w.trips[tripId := w.trips[tripId].(status := InProgress, pickedUpAt := Some(now))]))
  }

  /** A started trip is active, and starting again fails. */
  lemma StartOnlyOnce(w: World, tripId: nat, driverId: nat, now: int, later: int)
    requires StartTrip(w, tripId, driverId, now).Ok?
    ensures var v := StartTrip(w, tripId, driverId, now).value;
            && Trips.IsActive(v.trips[tripId])
            && StartTrip(v, tripId, driverId, later) == Err(InvalidState)
  {
  }

  /** The driver completes its own IN_PROGRESS trip: the trip becomes
      COMPLETED with the final fare, the commission is charged at the rate the
      driver's plan gives now (overwriting the rate frozen at creation), and
      the driver is set to ACTIVE afterwards, whatever the charge did to its
      status. Fails with nothing changed when the charge fails. */
  function CompleteTrip(w: World, cfg: Settings, tripId: nat, driverId: nat, finalFare: real, now: int): (r: Result<World>)
    ensures tripId !in w.trips || w.trips[tripId].driverId != driverId ==> r == Err(NotFound)
    ensures r.Ok? <==>
      && tripId in w.trips && w.trips[tripId].driverId == driverId
      && w.trips[tripId].status.InProgress? && !w.trips[tripId].commissionCharged
      && driverId in w.drivers
    ensures r.Ok? ==>
      var t := w.trips[tripId];
      var d := w.drivers[driverId];
      var rate := WalletService.CommissionRate(cfg, d, now);
      var commission := WalletService.Commission(finalFare, rate);
      var v := r.value;
      && tripId in v.trips && driverId in v.drivers
      && v.trips == w.trips[tripId := t.(status := Completed, finalFare := Some(finalFare), completedAt := Some(now),
                                         commissionCharged := true, commissionRate := rate,
                                         commissionAmount := Some(commission))]
      && v.drivers == w.drivers[driverId := d.(status := DriverStatus.Active,
                                               walletBalance := d.walletBalance - 2.0 * commission)]
      && |v.ledger| == |w.ledger| + 1 && v.ledger[..|w.ledger|] == w.ledger
      && v.ledger[|w.ledger|].kind == TripCommission && v.ledger[|w.ledger|].amount == -commission
      && v.ledger[|w.ledger|].tripId == Some(tripId) && v.ledger[|w.ledger|].driverId == driverId
      && v.ledger[|w.ledger|].balanceAfter == d.walletBalance - commission
      && v.(trips := w.trips, drivers := w.drivers, ledger := w.ledger) == w
  {
    if tripId !in w.trips || w.trips[tripId].driverId != driverId then Err(NotFound)
    else if !w.trips[tripId].status.InProgress? then Err(InvalidState)
    else
      var t := w.trips[tripId];
      var w1 := w.(trips := w.trips[tripId := t.(status := Completed, finalFare := Some(finalFare),
                                                completedAt := Some(now))]);
      var c := WalletService.ChargeTripCommission(w1, cfg, tripId, now);
      if c.Err? then Err(c.error)
      else
        var v := c.value.world;
        assert (w.ledger + [c.value.entry])[..|w.ledger|] == w.ledger;
        Ok(v.(drivers := v.drivers[driverId := v.drivers[driverId].(status := DriverStatus.Active)]))
  }

  /** The LIMITED status a charge may set does not survive completion: the
      driver is ACTIVE afterwards even when its balance is beyond its credit
      limit, so it counts as online while the matcher's credit filter is what
      keeps it from new offers. */
  lemma CompletionOverridesLimited(w: World, cfg: Settings, tripId: nat, driverId: nat, finalFare: real, now: int)
    requires CompleteTrip(w, cfg, tripId, driverId, finalFare, now).Ok?
    ensures var v := CompleteTrip(w, cfg, tripId, driverId, finalFare, now).value;
            && IsOnline(v.drivers[driverId])
            && (v.drivers[driverId].walletBalance < -CreditLimit(cfg, w.drivers[driverId]) ==>
                  !IsWithinCreditLimit(cfg, v.drivers[driverId]))
  {
    var v := CompleteTrip(w, cfg, tripId, driverId, finalFare, now).value;
    assert v.drivers[driverId].subscription == w.drivers[driverId].subscription;
  }

  /** Concretely: a FREE driver at balance 0 completing a 4000 trip ends
      ACTIVE at -1200, beyond the 500 ceiling. */
  lemma FreeDriverActiveBeyondLimit(w: World, tripId: nat, driverId: nat, now: int)
    requires tripId in w.trips && w.trips[tripId].driverId == driverId
    requires w.trips[tripId].status.InProgress? && !w.trips[tripId].commissionCharged
    requires driverId in w.drivers && w.drivers[driverId].subscription.None?
    requires w.drivers[driverId].walletBalance == 0.0
    ensures var r := CompleteTrip(w, Defaults, tripId, driverId, 4000.0, now);
            && r.Ok?
            && r.value.drivers[driverId].status == DriverStatus.Active
            && r.value.drivers[driverId].walletBalance == -1200.0
            && !IsWithinCreditLimit(Defaults, r.value.drivers[driverId])
  {
  }

  /** The rate frozen when the trip was created is not the one charged: a
      PREMIUM plan that lapses between creation and completion is charged the
      FREE rate, and the trip's stored rate is overwritten accordingly. */
  lemma ChargedRateIsRecomputed(w: World, cfg: Settings, tripId: nat, driverId: nat, finalFare: real, now: int)
    requires RatesWellFormed(cfg)
    requires CompleteTrip(w, cfg, tripId, driverId, finalFare, now).Ok?
    requires w.trips[tripId].commissionRate == cfg.commissionPremium
    requires w.drivers[driverId].subscription.Some?
    requires !Subscriptions.IsActive(w.drivers[driverId].subscription.value, now)
    ensures var v := CompleteTrip(w, cfg, tripId, driverId, finalFare, now).value;
            && v.trips[tripId].commissionRate == cfg.commissionFree
            && v.trips[tripId].commissionRate != w.trips[tripId].commissionRate
  {
  }
}

=== FILE: trips_api.dfy ===
/** The trip endpoints' own logic: on-demand and scheduled creation, the
    accept-then-create-trip composition, rejection, and who may view a
    request or a trip (rebu-project/backend/app/api/trips.py). */
module TripsApi {
  import opened Wrappers
  import opened Config
  import opened Requests
  import opened Offers
  import opened Trips
  import opened State
  import opened Repositories
  import opened Matching
  import opened TripLifecycle
  import opened Schemas

  /** The calling driver rejects its offer: only its own, and only before
      expiry; the offer then becomes REJECTED whatever its status was. */
  function RejectOffer(w: World, offerId: nat, driverId: nat, now: int): (r: Result<World>)
    ensures offerId !in w.offers || w.offers[offerId].driverId != driverId ==> r == Err(NotFound)
    ensures r.Ok? <==> (offerId in w.offers && w.offers[offerId].driverId == driverId
                        && !Offers.IsExpired(w.offers[offerId], now))
    ensures r.Ok? ==>
      r.value == w.(offers := w.offers[offerId := w.offers[offerId].(status := Rejected, respondedAt := Some(now))])
  {
    if offerId !in w.offers || w.offers[offerId].driverId != driverId then Err(NotFound)
    else if Offers.IsExpired(w.offers[offerId], now) then Err(InvalidState)
    else Ok(UpdateOfferStatus(w, offerId, Rejected, now).0)
  }

  /** Rejecting guards nothing: a rejected offer that has not expired can
      still be accepted while its request's lock is free. */
  lemma RejectedOfferCanStillBeAccepted(w: World, offerId: nat, driverId: nat, now: int)
    requires RejectOffer(w, offerId, driverId, now).Ok?
    requires w.offers[offerId].tripRequestId !in w.locks && w.offers[offerId].tripRequestId in w.requests
    ensures var v := RejectOffer(w, offerId, driverId, now).value;
            && v.offers[offerId].status.Rejected?
            && AcceptOffer(v, offerId, driverId, now).Ok?
            && AcceptOffer(v, offerId, driverId, now).value.offers[offerId].status.Accepted?
  {
  }

  /** What the accept endpoint answers. */
  datatype AcceptOutcome =
    | AcceptRefused(error: Error)
    | TripCreated(tripId: nat, requestId: nat)
    | TripNotCreated(error: Error)

  /** Accepts the offer; only if that succeeds is a trip created, for the
      offer's request and the calling driver. A failed trip creation does not
      undo the accept. */
  function AcceptOfferEndpoint(w: World, cfg: Settings, offerId: nat, driverId: nat, now: int): (r: (World, AcceptOutcome))
    ensures AcceptOffer(w, offerId, driverId, now).Err? <==> r.1.AcceptRefused?
    ensures r.1.AcceptRefused? ==> r.0 == w
    ensures r.1.TripCreated? ==>
      && r.1.requestId == w.offers[offerId].tripRequestId
      && r.1.tripId == AcceptOffer(w, offerId, driverId, now).value.nextId && r.1.tripId in r.0.trips
      && r.0.trips[r.1.tripId].tripRequestId == r.1.requestId
      && r.0.trips[r.1.tripId].driverId == driverId
    ensures r.1.TripNotCreated? ==>
      && r.0 == AcceptOffer(w, offerId, driverId, now).value
      && r.0.offers[offerId].status.Accepted?
      && r.1.error == (if driverId in w.drivers then Conflict else NotFound)
    ensures AcceptOffer(w, offerId, driverId, now).Ok? ==>
      (r.1.TripCreated? <==> driverId in w.drivers && !HasTripFor(w, w.offers[offerId].tripRequestId))
  {
    var a := AcceptOffer(w, offerId, driverId, now);
    if a.Err? then (w, AcceptRefused(a.error))
    else
      var rid := w.offers[offerId].tripRequestId;
      var c := CreateTripFromRequest(a.value, cfg, rid, driverId, now);
      assert a.value.trips == w.trips;
      if c.Err? then (a.value, TripNotCreated(c.error))
      else (c.value.world, TripCreated(c.value.id, rid))
  }

  /** Once a lapsed lock lets a second driver accept a sibling offer, that
      driver's call ends without a trip yet with its offer ACCEPTED, while the
      first driver's trip stands. */
  lemma LateAcceptKeepsOfferButGetsNoTrip(w: World, cfg: Settings, o1: nat, o2: nat, d1: nat, d2: nat, now: int)
    requires o1 != o2 && o1 in w.offers && o2 in w.offers
    requires w.offers[o1].driverId == d1 && w.offers[o2].driverId == d2 && d1 in w.drivers && d2 in w.drivers
    requires w.offers[o1].tripRequestId == w.offers[o2].tripRequestId
    requires !Offers.IsExpired(w.offers[o1], now) && !Offers.IsExpired(w.offers[o2], now)
    requires w.offers[o1].tripRequestId !in w.locks && w.offers[o1].tripRequestId in w.requests
    requires !HasTripFor(w, w.offers[o1].tripRequestId)
    ensures var rid := w.offers[o1].tripRequestId;
            var first := AcceptOfferEndpoint(w, cfg, o1, d1, now);
            var second := AcceptOfferEndpoint(LockLapses(first.0, rid), cfg, o2, d2, now);
            && first.1.TripCreated?
            && second.1 == TripNotCreated(Conflict)
            && second.0.offers[o1].status.Accepted? && second.0.offers[o2].status.Accepted?
  {
    var rid := w.offers[o1].tripRequestId;
    var first := AcceptOfferEndpoint(w, cfg, o1, d1, now);
    assert first.1.TripCreated?;
    var v := LockLapses(first.0, rid);
    assert HasTripFor(v, rid) by {
      assert v.trips[first.1.tripId].tripRequestId == rid;
    }
    assert v.offers[o2] == w.offers[o2] && d2 in v.drivers && rid in v.requests;
    var a2 := AcceptOffer(v, o2, d2, now);
    assert a2.Ok?;
    assert a2.value.trips == v.trips;
  }

  /** Creates an on-demand request whatever mode the body carries, runs the
      first matching wave and sends offers only when it found candidates. */
  function CreateOnDemandEndpoint(w: World, cfg: Settings, userId: nat, b: OnDemandBody, geo: GeoQuery, now: int)
    : (r: Result<Created>)
    ensures r.Err? <==> ValidateOnDemand(b) != {}
    ensures r.Err? ==> r.error == ValidationError
    ensures r.Ok? ==>
      var c := CreateOnDemandTrip(w, cfg, userId, b.pickup, b.dropoff, b.estimatedFare, now);
      var q := c.world.requests[c.id];
      var candidates := FindDriversForOnDemandTrip(c.world, cfg, c.id, q, 1, geo);
      && r.value.id == c.id
      && r.value.id in r.value.world.requests && IsOnDemand(r.value.world.requests[r.value.id])
      && r.value.world == SendOffersToDrivers(c.world, cfg, c.id, q, candidates, now)
      && (candidates == [] ==> r.value.world.offers == w.offers)
  {
    if ValidateOnDemand(b) != {} then Err(ValidationError)
    else
      var c := CreateOnDemandTrip(w, cfg, userId, b.pickup, b.dropoff, b.estimatedFare, now);
      var q := c.world.requests[c.id];
      var candidates := FindDriversForOnDemandTrip(c.world, cfg, c.id, q, 1, geo);
      if candidates == [] then Ok(c)
      else Ok(Created(SendOffersToDrivers(c.world, cfg, c.id, q, candidates, now), c.id))
  }

  /** Every wave-1 candidate of a valid on-demand body receives a pending
      offer for the new request, even when the body said SCHEDULED. */
  lemma OnDemandEndpointOffersEveryCandidate(w: World, cfg: Settings, userId: nat, b: OnDemandBody,
                                             geo: GeoQuery, now: int, i: nat)
    requires ValidateOnDemand(b) == {}
    requires var c := CreateOnDemandTrip(w, cfg, userId, b.pickup, b.dropoff, b.estimatedFare, now);
             i < |FindDriversForOnDemandTrip(c.world, cfg, c.id, c.world.requests[c.id], 1, geo)|
    ensures var c := CreateOnDemandTrip(w, cfg, userId, b.pickup, b.dropoff, b.estimatedFare, now);
            var cands := FindDriversForOnDemandTrip(c.world, cfg, c.id, c.world.requests[c.id], 1, geo);
            var v := CreateOnDemandEndpoint(w, cfg, userId, b, geo, now).value;
            && c.world.nextId + i in v.world.offers
            && v.world.offers[c.world.nextId + i].driverId == cands[i]
            && v.world.offers[c.world.nextId + i].tripRequestId == v.id
            && v.world.offers[c.world.nextId + i].status.Pending?
            && v.world.requests[v.id].mode == OnDemand
  {
    var c := CreateOnDemandTrip(w, cfg, userId, b.pickup, b.dropoff, b.estimatedFare, now);
    var q := c.world.requests[c.id];
    var cands := FindDriversForOnDemandTrip(c.world, cfg, c.id, q, 1, geo);
    var sent := SendOffersToDrivers(c.world, cfg, c.id, q, cands, now);
    assert CreateOnDemandEndpoint(w, cfg, userId, b, geo, now) == Ok(Created(sent, c.id)) by {
      assert cands != [];
    }
    assert sent.requests == c.world.requests;
  }

  /** Creates a scheduled request from a valid body; no matching runs. */
  function CreateScheduledEndpoint(w: World, userId: nat, b: ScheduledBody, now: int): (r: Result<Created>)
    ensures r.Err? <==> ValidateScheduled(b, now) != {}
    ensures r.Ok? ==>
      && r.value.id in r.value.world.requests
      && IsScheduled(r.value.world.requests[r.value.id])
      && r.value.world.requests[r.value.id].scheduledStartAt == Some(b.scheduledStartAt)
      && r.value.world.requests[r.value.id].scheduledEndAt == Some(b.scheduledEndAt)
      && now < b.scheduledStartAt < b.scheduledEndAt
      && r.value.world.offers == w.offers
  {
    if ValidateScheduled(b, now) != {} then Err(ValidationError)
    else
      AcceptedWindowIsFutureAndNonEmpty(b, now);
      Ok(CreateScheduledTrip(w, userId, b.pickup, b.dropoff, b.estimatedFare, b.scheduledStartAt, b.scheduledEndAt, now))
  }

  /** The caller's role as the authentication layer reports it. */
  datatype Role = UserRole | DriverRole | OtherRole
  datatype Caller = Caller(role: Role, id: nat)

  /** Who may see a request: a user only their own; a driver only one it has
      an offer for (in any status) or is pre-assigned to; any other role all. */
  function ViewRequest(w: World, caller: Caller, requestId: nat): (r: Result<TripRequest>)
    ensures requestId !in w.requests ==> r == Err(NotFound)
    ensures r.Ok? ==> requestId in w.requests && r.value == w.requests[requestId]
    ensures requestId in w.requests ==>
      (r.Ok? <==>
         match caller.role
         case UserRole => w.requests[requestId].userId == caller.id
         case DriverRole =>
           (exists k :: k in w.offers && w.offers[k].tripRequestId == requestId && w.offers[k].driverId == caller.id)
           || w.requests[requestId].preAssignedDriverId == Some(caller.id)
         case OtherRole => true)
    ensures r.Err? && requestId in w.requests ==> r.error == Unauthorized
  {
    if requestId !in w.requests then Err(NotFound)
    else
      var q := w.requests[requestId];
      if caller.role == UserRole && q.userId != caller.id then Err(Unauthorized)
      else if caller.role == DriverRole && !HasOfferForDriver(w, requestId, caller.id)
              && q.preAssignedDriverId != Some(caller.id) then Err(Unauthorized)
      else Ok(q)
  }

  /** A driver's view right survives the driver rejecting (or any status
      change of) its offer. */
  lemma DriverKeepsViewAfterReject(w: World, offerId: nat, driverId: nat, now: int)
    requires RejectOffer(w, offerId, driverId, now).Ok?
    ensures var rid := w.offers[offerId].tripRequestId;
            rid in w.requests ==>
              ViewRequest(RejectOffer(w, offerId, driverId, now).value, Caller(DriverRole, driverId), rid).Ok?
  {
    var v := RejectOffer(w, offerId, driverId, now).value;
    assert v.offers[offerId].tripRequestId == w.offers[offerId].tripRequestId;
  }

  /** Who may see a trip: its user, its driver, or any other role. */
  function ViewTrip(w: World, caller: Caller, tripId: nat): (r: Result<Trip>)
    ensures tripId !in w.trips ==> r == Err(NotFound)
    ensures r.Ok? ==> tripId in w.trips && r.value == w.trips[tripId]
    ensures tripId in w.trips ==>
      (r.Ok? <==>
         match caller.role
         case UserRole => w.trips[tripId].userId == caller.id
         case DriverRole => w.trips[tripId].driverId == caller.id
         case OtherRole => true)
  {
    if tripId !in w.trips then Err(NotFound)
    else
      var t := w.trips[tripId];
      if caller.role == UserRole && t.userId != caller.id then Err(Unauthorized)
      else if caller.role == DriverRole && t.driverId != caller.id then Err(Unauthorized)
      else Ok(t)
  }

  /** A trip is always visible to its own user and to its own driver, and to
      a user or driver of another trip never. */
  lemma TripVisibleExactlyToItsParties(w: World, tripId: nat, id: nat)
    requires tripId in w.trips
    ensures ViewTrip(w, Caller(UserRole, w.trips[tripId].userId), tripId) == Ok(w.trips[tripId])
    ensures ViewTrip(w, Caller(DriverRole, w.trips[tripId].driverId), tripId) == Ok(w.trips[tripId])
    ensures id != w.trips[tripId].userId ==> ViewTrip(w, Caller(UserRole, id), tripId) == Err(Unauthorized)
    ensures id != w.trips[tripId].driverId ==> ViewTrip(w, Caller(DriverRole, id), tripId) == Err(Unauthorized)
  {
  }
}

=== FILE: wallet_service.dfy ===
/** Commission charging, payments, bonuses and penalties
    (rebu-project/backend/app/services/wallet_service.py).

    Each operation first writes its entry through `CreateTransaction`, which
    already moves the driver's balance by the amount, and then moves the same
    driver's balance by the amount a second time. The entry therefore records
    `old + amount` while the driver ends at `old + 2 * amount`. */
module WalletService {
  import opened Wrappers
  import opened Config
  import opened Subscriptions
  import opened Drivers
  import opened Trips
  import opened Ledger
  import opened State
  import opened Repositories

  /** The commission share: FREE without a plan or with an inactive one,
      otherwise the rate of the plan's tier. */
  function CommissionRate(cfg: Settings, d: Driver, now: int): (rate: real)
    ensures d.subscription.None? || !Subscriptions.IsActive(d.subscription.value, now) ==> rate == cfg.commissionFree
    ensures RatesWellFormed(cfg) ==> 0.0 <= cfg.commissionPremium <= rate <= cfg.commissionFree <= 1.0
  {
    match d.subscription
    case None => cfg.commissionFree
    case Some(s) =>
      if !Subscriptions.IsActive(s, now) then cfg.commissionFree
      else if s.tier == Premium then cfg.commissionPremium
      else if s.tier == Pro then cfg.commissionPro
      else cfg.commissionFree
  }

  /** The commission owed on a trip: its final fare times the driver's rate. */
  function Commission(fare: real, rate: real): real {
    fare * rate
  }

  /** The rate each tier maps to, written independently of `CommissionRate`. */
  function TierRate(cfg: Settings, tier: SubscriptionTier): real {
    match tier
    case Free => cfg.commissionFree
    case Pro => cfg.commissionPro
    case Premium => cfg.commissionPremium
  }

  /** An active plan earns its tier's rate. Unlike the credit limit, the rate
      falls back to FREE once the plan is inactive: an expired PREMIUM plan
      pays the FREE rate yet keeps the PREMIUM credit ceiling. */
  lemma RateFollowsActivenessButLimitDoesNot(cfg: Settings, d: Driver, now: int)
    requires d.subscription.Some?
    ensures Subscriptions.IsActive(d.subscription.value, now) ==>
              CommissionRate(cfg, d, now) == TierRate(cfg, d.subscription.value.tier)
    ensures d.subscription.value.tier == Premium && !Subscriptions.IsActive(d.subscription.value, now) ==>
              CommissionRate(cfg, d, now) == cfg.commissionFree && CreditLimit(cfg, d) == cfg.creditLimitPremium
  {
  }

  /** Charges the commission of a finished trip: fails if it was already
      charged; otherwise debits `final fare * rate` with a TRIP_COMMISSION entry
      linked to the trip, applies the debit a second time to the driver,
      records the rate and amount on the trip, and sets LIMITED when the
      driver's resulting balance is out of limit. */
  function ChargeTripCommission(w: World, cfg: Settings, tripId: nat, now: int): (r: Result<Posted>)
    ensures tripId in w.trips && w.trips[tripId].commissionCharged ==> r == Err(InvalidState)
    ensures r.Ok? <==>
      && tripId in w.trips && !w.trips[tripId].commissionCharged
      && w.trips[tripId].driverId in w.drivers && w.trips[tripId].finalFare.Some?
    ensures r.Ok? ==>
      var t := w.trips[tripId];
      var d := w.drivers[t.driverId];
      var rate := CommissionRate(cfg, d, now);
      var commission := Commission(t.finalFare.value, rate);
      var v := r.value.world;
      var e := r.value.entry;
      && e.kind == TripCommission && e.amount == -commission && e.tripId == Some(tripId)
      && e.driverId == t.driverId && e.balanceAfter == d.walletBalance - commission
      && v.ledger == w.ledger + [e]
      && t.driverId in v.drivers
      && v.drivers[t.driverId].walletBalance == d.walletBalance - 2.0 * commission
      && (v.drivers[t.driverId].walletBalance < -CreditLimit(cfg, d) ==> v.drivers[t.driverId].status.Limited?)
      && (v.drivers[t.driverId].walletBalance >= -CreditLimit(cfg, d) ==> v.drivers[t.driverId].status == d.status)
      && v.drivers[t.driverId].subscription == d.subscription
      && v.trips == w.trips[tripId := t.(commissionCharged := true, commissionRate := rate, commissionAmount := Some(commission))]
      && v.(drivers := w.drivers, trips := w.trips, ledger := w.ledger) == w
      && (forall k :: k in w.drivers && k != t.driverId ==> k in v.drivers && v.drivers[k] == w.drivers[k])
      && v.drivers.Keys == w.drivers.Keys
  {
    if tripId !in w.trips then Err(NotFound)
    else
      var t := w.trips[tripId];
      if t.commissionCharged then Err(InvalidState)
      else if t.driverId !in w.drivers then Err(NotFound)
      else if t.finalFare.None? then Err(InvalidState)
      else
        var rate := CommissionRate(cfg, w.drivers[t.driverId], now);
        var commission := Commission(t.finalFare.value, rate);
        var p := CreateTransaction(w, t.driverId, TripCommission, -commission, Some(tripId), None, now).value;
        var d1 := p.world.drivers[t.driverId];
        var d2 := d1.(walletBalance := d1.walletBalance - commission);
        var d3 := if !IsWithinCreditLimit(cfg, d2) then d2.(status := Limited) else d2;
        var t2 := t.(commissionCharged := true, commissionRate := rate, commissionAmount := Some(commission));
        Ok(Posted(p.world.(drivers := p.world.drivers[t.driverId := d3], trips := p.world.trips[tripId := t2]), p.entry))
  }

  /** A successful charge marks the trip, so charging it again fails. */
  lemma ChargeIsOnce(w: World, cfg: Settings, tripId: nat, now: int, later: int)
    requires ChargeTripCommission(w, cfg, tripId, now).Ok?
    ensures ChargeTripCommission(ChargeTripCommission(w, cfg, tripId, now).value.world, cfg, tripId, later) == Err(InvalidState)
  {
  }

  /** Records a positive PAYMENT entry; rejects a non-positive amount, then an
      unknown driver. A LIMITED driver whose resulting balance is within limit
      becomes ACTIVE; every other status is kept. */
  function AddPayment(w: World, cfg: Settings, driverId: nat, amount: real, reference: string, now: int): (r: Result<Posted>)
    ensures amount <= 0.0 ==> r == Err(ValidationError)
    ensures amount > 0.0 && driverId !in w.drivers ==> r == Err(NotFound)
    ensures r.Ok? <==> amount > 0.0 && driverId in w.drivers
    ensures r.Ok? ==>
      var d := w.drivers[driverId];
      var v := r.value.world;
      var e := r.value.entry;
      && e.kind == Payment && e.amount == amount && e.reference == Some(reference)
      && e.driverId == driverId && e.balanceAfter == d.walletBalance + amount
      && v.ledger == w.ledger + [e]
      && driverId in v.drivers
      && v.drivers[driverId].walletBalance == d.walletBalance + 2.0 * amount
      && (if d.status.Limited? && v.drivers[driverId].walletBalance >= -CreditLimit(cfg, d)
          then v.drivers[driverId].status.Active?
          else v.drivers[driverId].status == d.status)
      && v.drivers[driverId].subscription == d.subscription
      && v.(drivers := w.drivers, ledger := w.ledger) == w
      && v.drivers.Keys == w.drivers.Keys
      && (forall k :: k in w.drivers && k != driverId ==> v.drivers[k] == w.drivers[k])
  {
    if amount <= 0.0 then Err(ValidationError)
    else if driverId !in w.drivers then Err(NotFound)
    else
      var p := CreateTransaction(w, driverId, Payment, amount, None, Some(reference), now).value;
      var d1 := p.world.drivers[driverId];
      var d2 := d1.(walletBalance := d1.walletBalance + amount);
      var d3 := if d2.status.Limited? && IsWithinCreditLimit(cfg, d2) then d2.(status := DriverStatus.Active) else d2;
      Ok(Posted(p.world.(drivers := p.world.drivers[driverId := d3]), p.entry))
  }

  /** Records a positive BONUS entry; never touches the driver's status. */
  function AddBonus(w: World, driverId: nat, amount: real, now: int): (r: Result<Posted>)
    ensures amount <= 0.0 ==> r == Err(ValidationError)
    ensures r.Ok? <==> amount > 0.0 && driverId in w.drivers
    ensures r.Ok? ==>
      var d := w.drivers[driverId];
      var v := r.value.world;
      var e := r.value.entry;
      && e.kind == Bonus && e.amount == amount && SignAgrees(e)
      && e.driverId == driverId && e.balanceAfter == d.walletBalance + amount
      && v.ledger == w.ledger + [e]
      && v.drivers == w.drivers[driverId := d.(walletBalance := d.walletBalance + 2.0 * amount)]
      && v.(drivers := w.drivers, ledger := w.ledger) == w
  {
    if amount <= 0.0 then Err(ValidationError)
    else if driverId !in w.drivers then Err(NotFound)
    else
      var p := CreateTransaction(w, driverId, Bonus, amount, None, None, now).value;
      var d1 := p.world.drivers[driverId];
      Ok(Posted(p.world.(drivers := p.world.drivers[driverId := d1.(walletBalance := d1.walletBalance + amount)]), p.entry))
  }

  /** Records a negative PENALTY entry of minus the amount; a driver whose
      resulting balance is out of limit becomes LIMITED, whatever its status was. */
  function AddPenalty(w: World, cfg: Settings, driverId: nat, amount: real, now: int): (r: Result<Posted>)
    ensures amount <= 0.0 ==> r == Err(ValidationError)
    ensures r.Ok? <==> amount > 0.0 && driverId in w.drivers
    ensures r.Ok? ==>
      var d := w.drivers[driverId];
      var v := r.value.world;
      var e := r.value.entry;
      && e.kind == Penalty && e.amount == -amount && SignAgrees(e)
      && e.driverId == driverId && e.balanceAfter == d.walletBalance - amount
      && v.ledger == w.ledger + [e]
      && driverId in v.drivers
      && v.drivers[driverId].walletBalance == d.walletBalance - 2.0 * amount
      && (if v.drivers[driverId].walletBalance < -CreditLimit(cfg, d)
          then v.drivers[driverId].status.Limited?
          else v.drivers[driverId].status == d.status)
      && v.drivers[driverId].subscription == d.subscription
      && v.(drivers := w.drivers, ledger := w.ledger) == w
      && v.drivers.Keys == w.drivers.Keys
      && (forall k :: k in w.drivers && k != driverId ==> v.drivers[k] == w.drivers[k])
  {
    if amount <= 0.0 then Err(ValidationError)
    else if driverId !in w.drivers then Err(NotFound)
    else
      var p := CreateTransaction(w, driverId, Penalty, -amount, None, None, now).value;
      var d1 := p.world.drivers[driverId];
      var d2 := d1.(walletBalance := d1.walletBalance - amount);
      var d3 := if !IsWithinCreditLimit(cfg, d2) then d2.(status := Limited) else d2;
      Ok(Posted(p.world.(drivers := p.world.drivers[driverId := d3]), p.entry))
  }

  /** The double debit in general: an operation that appends one entry of a
      non-zero amount for a driver of a consistent ledger and moves that
      driver's balance by twice the amount leaves the balance the replayed sum
      plus the amount again, so the ledger is no longer consistent. */
  lemma DoubleApplyBreaksReplay(w: World, v: World, e: WalletTransaction, driverId: nat)
    requires LedgerConsistent(w) && driverId in w.drivers && driverId in v.drivers
    requires v.ledger == w.ledger + [e] && e.driverId == driverId && e.amount != 0.0
    requires v.drivers[driverId].walletBalance == w.drivers[driverId].walletBalance + 2.0 * e.amount
    ensures v.drivers[driverId].walletBalance == Replay(0.0, ForDriver(v.ledger, driverId)) + e.amount
    ensures !LedgerConsistent(v)
  {
    ForDriverAppend(w.ledger, e, driverId);
    AppendOne(0.0, ForDriver(w.ledger, driverId), e);
  }

  /** After one bonus on a consistent ledger the balance is the replayed sum
      plus the amount again. */
  lemma BonusBreaksLedgerReplay(w: World, driverId: nat, amount: real, now: int)
    requires LedgerConsistent(w) && driverId in w.drivers && amount > 0.0
    ensures AddBonus(w, driverId, amount, now).Ok?
    ensures var v := AddBonus(w, driverId, amount, now).value.world;
            && v.drivers[driverId].walletBalance == Replay(0.0, ForDriver(v.ledger, driverId)) + amount
            && !LedgerConsistent(v)
  {
    var p := AddBonus(w, driverId, amount, now).value;
    DoubleApplyBreaksReplay(w, p.world, p.entry, driverId);
  }

  /** After one payment on a consistent ledger the balance is the replayed
      sum plus the amount again. */
  lemma PaymentBreaksLedgerReplay(w: World, cfg: Settings, driverId: nat, amount: real, reference: string, now: int)
    requires LedgerConsistent(w) && driverId in w.drivers && amount > 0.0
    ensures AddPayment(w, cfg, driverId, amount, reference, now).Ok?
    ensures var v := AddPayment(w, cfg, driverId, amount, reference, now).value.world;
            && v.drivers[driverId].walletBalance == Replay(0.0, ForDriver(v.ledger, driverId)) + amount
            && !LedgerConsistent(v)
  {
    var p := AddPayment(w, cfg, driverId, amount, reference, now).value;
    DoubleApplyBreaksReplay(w, p.world, p.entry, driverId);
  }

  /** After one penalty on a consistent ledger the balance is the replayed
      sum minus the amount again. */
  lemma PenaltyBreaksLedgerReplay(w: World, cfg: Settings, driverId: nat, amount: real, now: int)
    requires LedgerConsistent(w) && driverId in w.drivers && amount > 0.0
    ensures AddPenalty(w, cfg, driverId, amount, now).Ok?
    ensures var v := AddPenalty(w, cfg, driverId, amount, now).value.world;
            && v.drivers[driverId].walletBalance == Replay(0.0, ForDriver(v.ledger, driverId)) - amount
            && !LedgerConsistent(v)
  {
    var p := AddPenalty(w, cfg, driverId, amount, now).value;
    DoubleApplyBreaksReplay(w, p.world, p.entry, driverId);
  }

  /** After a non-zero commission charge on a consistent ledger the balance is
      the replayed sum minus the commission again. */
  lemma ChargeBreaksLedgerReplay(w: World, cfg: Settings, tripId: nat, now: int)
    requires LedgerConsistent(w) && ChargeTripCommission(w, cfg, tripId, now).Ok?
    requires var t := w.trips[tripId];
             Commission(t.finalFare.value, CommissionRate(cfg, w.drivers[t.driverId], now)) != 0.0
    ensures var t := w.trips[tripId];
            var c := Commission(t.finalFare.value, CommissionRate(cfg, w.drivers[t.driverId], now));
            var v := ChargeTripCommission(w, cfg, tripId, now).value.world;
            && v.drivers[t.driverId].walletBalance == Replay(0.0, ForDriver(v.ledger, t.driverId)) - c
            && !LedgerConsistent(v)
  {
    var p := ChargeTripCommission(w, cfg, tripId, now).value;
    DoubleApplyBreaksReplay(w, p.world, p.entry, w.trips[tripId].driverId);
  }

  /** The scenario of a FREE driver at balance 0 (credit limit 500) finishing a
      4000 fare at rate 0.15: the 600 commission is recorded with snapshot
      -600, the driver is debited twice to -1200 and becomes LIMITED. */
  lemma FreeTierCommissionScenario(w: World, tripId: nat, now: int)
    requires tripId in w.trips
    requires var t := w.trips[tripId];
             && !t.commissionCharged && t.finalFare == Some(4000.0)
             && t.driverId in w.drivers
             && w.drivers[t.driverId].walletBalance == 0.0
             && w.drivers[t.driverId].subscription.None?
    ensures ChargeTripCommission(w, Defaults, tripId, now).Ok?
    ensures var p := ChargeTripCommission(w, Defaults, tripId, now).value;
            var d := w.trips[tripId].driverId;
            && p.entry.amount == -600.0 && p.entry.balanceAfter == -600.0
            && p.world.drivers[d].walletBalance == -1200.0
            && p.world.drivers[d].status.Limited?
  {
  }
}

=== FILE: wallet_transaction.dfy ===
/** Wallet ledger entries and what it means for a driver's log to be a
    verifiable ledger (rebu-project/backend/app/models/wallet_transaction.py). */
module Ledger {
  import opened Wrappers

  datatype TransactionType = TripCommission | Payment | Refund | Adjustment | Bonus | Penalty

  const AllTransactionTypes: set<TransactionType> :=
    {TripCommission, Payment, Refund, Adjustment, Bonus, Penalty}

  lemma SixTransactionTypes()
    ensures |AllTransactionTypes| == 6
    ensures forall t: TransactionType :: t in AllTransactionTypes
  {
    forall t: TransactionType
      ensures t in AllTransactionTypes
    {
      match t
      case TripCommission =>
      case Payment =>
      case Refund =>
      case Adjustment =>
      case Bonus =>
      case Penalty =>
    }
  }

  /** Commission and penalty entries take money from the driver. */
  predicate IsDebitType(t: TransactionType) {
    t == TripCommission || t == Penalty
  }

  /** Payment, refund and bonus entries give money to the driver; an
      adjustment may go either way. */
  predicate IsCreditType(t: TransactionType) {
    t == Payment || t == Refund || t == Bonus
  }

  /** One ledger entry. `amount` is signed (positive credits the driver,
      negative debits), and `balanceAfter` is the balance snapshot stored with it. */
  datatype WalletTransaction = WalletTransaction(
    driverId: nat,
    kind: TransactionType,
    amount: real,
    balanceAfter: real,
    tripId: Option<nat>,
    reference: Option<string>,
    createdAt: int
  )

  /** The entry's sign agrees with its type. */
  predicate SignAgrees(tx: WalletTransaction) {
    && (IsDebitType(tx.kind) ==> tx.amount < 0.0)
    && (IsCreditType(tx.kind) ==> tx.amount > 0.0)
  }

  /** The entries of one driver, in creation order. */
  function ForDriver(log: seq<WalletTransaction>, d: nat): (r: seq<WalletTransaction>)
    ensures |r| <= |log|
    ensures forall tx :: tx in r <==> tx in log && tx.driverId == d
  {
    if log == [] then []
    else
      var prefix := ForDriver(log[..|log| - 1], d);
      var last := log[|log| - 1];
      assert log == log[..|log| - 1] + [last];
      if last.driverId == d then prefix + [last] else prefix
  }

  /** The balance reached by adding every amount of `log` to `start`. */
  function Replay(start: real, log: seq<WalletTransaction>): real {
    if log == [] then start
    else Replay(start, log[..|log| - 1]) + log[|log| - 1].amount
  }

  /** Every stored `balanceAfter` equals the running balance obtained by
      replaying the amounts up to and including that entry. */
  predicate Chained(start: real, log: seq<WalletTransaction>) {
    if log == [] then true
    else
      && Chained(start, log[..|log| - 1])
      && log[|log| - 1].balanceAfter == Replay(start, log[..|log| - 1]) + log[|log| - 1].amount
  }

  /** Appending one entry extends the replay by its amount, and keeps the log
      chained exactly when the new snapshot is the running balance plus the amount. */
  lemma {:induction false} AppendOne(start: real, log: seq<WalletTransaction>, tx: WalletTransaction)
    ensures Replay(start, log + [tx]) == Replay(start, log) + tx.amount
    ensures Chained(start, log + [tx]) <==>
              Chained(start, log) && tx.balanceAfter == Replay(start, log) + tx.amount
  {
    assert (log + [tx])[..|log|] == log;
  }

  /** Filtering an extended log adds the new entry exactly when it is the driver's. */
  lemma {:induction false} ForDriverAppend(log: seq<WalletTransaction>, tx: WalletTransaction, d: nat)
    ensures ForDriver(log + [tx], d) == if tx.driverId == d then ForDriver(log, d) + [tx] else ForDriver(log, d)
  {
    assert (log + [tx])[..|log|] == log;
  }

  /** In a chained log the last snapshot is the replayed balance. */
  lemma LastSnapshotIsReplay(start: real, log: seq<WalletTransaction>)
    requires Chained(start, log) && log != []
    ensures log[|log| - 1].balanceAfter == Replay(start, log)
  {
  }
}

=== FILE: world.dfy ===
/** The whole state the dispatch and ledger logic works on: the relational
    tables as maps from ids to records, the wallet ledger as an append-only
    sequence, and the key-value stores the services keep beside them. */
module State {
  import opened Wrappers
  import opened Drivers
  import opened Requests
  import opened Offers
  import opened Trips
  import opened Ledger
  import opened Availability

  /** `locks` holds the request ids whose acceptance lock is set;
      `pending` maps a request id to the drivers holding an offer for it;
      `statusCache` maps a driver id to its cached status text;
      `nextId` is the next id handed out to an inserted row. */
  datatype World = World(
    drivers: map<nat, Driver>,
    requests: map<nat, TripRequest>,
    offers: map<nat, TripOffer>,
    trips: map<nat, Trip>,
    ledger: seq<WalletTransaction>,
    blocks: map<nat, AvailabilityBlock>,
    locks: set<nat>,
    pending: map<nat, set<nat>>,
    statusCache: map<nat, string>,
    nextId: nat
  )

  predicate KeysBelow(keys: set<nat>, bound: nat) {
    forall k :: k in keys ==> k < bound
  }

  /** Ids handed out so far are all below `nextId`, so the next insert is fresh. */
  predicate FreshIds(w: World) {
    && KeysBelow(w.requests.Keys, w.nextId)
    && KeysBelow(w.offers.Keys, w.nextId)
    && KeysBelow(w.trips.Keys, w.nextId)
    && KeysBelow(w.blocks.Keys, w.nextId)
  }

  /** The drivers with a pending offer for request `r`; a missing key reads as empty. */
  function PendingFor(w: World, r: nat): set<nat> {
    if r in w.pending then w.pending[r] else {}
  }

  /** The cached status text of a driver, absent when nothing is cached. */
  function CachedStatus(w: World, d: nat): Option<string> {
    if d in w.statusCache then Some(w.statusCache[d]) else None
  }

  /** Some trip references request `r`. */
  predicate HasTripFor(w: World, r: nat) {
    exists k :: k in w.trips && w.trips[k].tripRequestId == r
  }

  /** The unique `trip_request_id` column: no two trips share a request. */
  predicate OneTripPerRequest(w: World) {
    forall k1, k2 :: k1 in w.trips && k2 in w.trips && k1 != k2 ==>
      w.trips[k1].tripRequestId != w.trips[k2].tripRequestId
  }

  /** No two blocks of the same driver overlap. */
  predicate NoDoubleBooking(blocks: map<nat, AvailabilityBlock>) {
    forall k1, k2 :: k1 in blocks && k2 in blocks && k1 != k2 && blocks[k1].driverId == blocks[k2].driverId ==>
      !OverlapsWith(blocks[k1], blocks[k2].startTime, blocks[k2].endTime)
  }

  /** Every driver's current balance, and every snapshot in the driver's
      entries, is what replaying that driver's entries from zero gives. */
  predicate LedgerConsistent(w: World) {
    forall d :: d in w.drivers ==>
      && Chained(0.0, ForDriver(w.ledger, d))
      && w.drivers[d].walletBalance == Replay(0.0, ForDriver(w.ledger, d))
  }
}

=== FILE: wrappers.dfy ===
/** Failure-carrying return values shared by every module of the model. */
module Wrappers {

  /** A value that may be absent: a nullable column or an optional argument. */
  datatype Option<+T> = None | Some(value: T)

  /** The failure kinds the services raise or return.
      NotFound: a referenced record is absent;
      Unauthorized: the caller does not own the record;
      InvalidState: the record's status forbids the operation;
      Conflict: the acceptance lock is held, or a unique column would repeat;
      ValidationError: a non-positive amount or a malformed request. */
  datatype Error = NotFound | Unauthorized | InvalidState | Conflict | ValidationError

  /** The outcome of an operation that either succeeds with a value or fails
      with an `Error` and changes nothing. */
  datatype Result<+T> = Ok(value: T) | Err(error: Error) {

    predicate IsFailure() {
      Err?
    }

    function PropagateFailure<U>(): Result<U>
      requires Err?
    {
      Err(error)
    }

    function Extract(): T
      requires Ok?
    {
      value
    }
  }
}
